=== FILE: README.md ===
# carte-grise core in Dafny

This project models the access-control and workflow core of the carte-grise
vehicle-registration back office and proves properties about it. It covers:

- the Express middleware: JWT authentication, role, permission and ownership
  guards, and audit logging with redaction of secrets;
- the authentication controller: login with its failed-attempt lock-out, and
  token refresh;
- the role controller: validation, the reserved `SYSTEM_ADMIN` role, and the
  intended persistence, modelled as a role registry class;
- the workflow engine's action dispatch;
- the signature service's hash binding;
- the form engine's schema building and validation;
- on the client, the `AuthContext` session and the route guard of `App.js`.

JavaScript values are modelled by `Values.Value`: undefined, null, booleans,
integers, strings, arrays, and objects as ordered key/value lists. Truthiness,
`trim`, object spread and `JSON.stringify` are written out explicitly.
Everything the code calls but does not define becomes a parameter of the
operation that uses it:

| External call | Parameter |
|---|---|
| bcrypt | an `Attempt<bool>` |
| `jwt.verify`, `jwtDecode` | functions |
| SHA-256 | `hash: string -> string` |
| the RSA check | an oracle returning `Attempt<bool>` |
| the clock | an `int` of milliseconds |
| fresh UUIDs | strings |
| Joi's regular-expression, e-mail and date checks | the `FormEngine.Lib` record |

Several controllers only carry their database logic as comments, and answer
success without touching a store. For these, the model has two parts. The
running code is a function (`UpdateRoleLive`, `VerifySignatureLive`,
`GetAllRoles`). The commented-out intended behaviour is a separate member,
for example `RoleController.RoleRegistry.Update` or
`SignatureService.VerifyIntended`.

## Model

| member | source | states |
|---|---|---|
| Rbac.SomeRoleMatches | backend/src/middleware/rbac.js:23-25 | true iff some entry of the user's roles is the required name, either as a string or as an object's `name` |
| Rbac.HoldsAnyRole | backend/src/middleware/rbac.js:23-25 | true iff some allowed role is matched by some role of the user |
| Rbac.IncludesAny | backend/src/middleware/rbac.js:59-63 | true iff some required permission is among the user's permissions |
| Rbac.RequireRole | backend/src/middleware/rbac.js:10-38 | no user gives 401 "Authentication required"; otherwise `next()` iff the user holds one of the allowed roles, else 403 "Insufficient permissions" with the allowed list |
| Rbac.RequirePermission | backend/src/middleware/rbac.js:44-82 | no user gives 401; otherwise `next()` iff some required permission is held, else 403 "Insufficient permissions" |
| Rbac.RequireOwnershipOrAdmin | backend/src/middleware/rbac.js:88-117 | no user gives 401; otherwise `next()` iff the user is SYSTEM_ADMIN or the user id equals the route parameter (default `id`), else 403 "Access denied" |
| Rbac.RequireRoleMonotone | backend/src/middleware/rbac.js:23-25 | a user with more roles passes every role guard a user with fewer roles passes |
| Rbac.RequireRoleEmptyDenies | backend/src/middleware/rbac.js:20-33 | a user without roles, or a guard with no allowed role, is refused with 403 |
| Rbac.RequirePermissionMonotone | backend/src/middleware/rbac.js:59-63 | more permissions never lose access |
| Rbac.AdminPassesOwnership | backend/src/middleware/rbac.js:101-105 | a SYSTEM_ADMIN passes every ownership guard, whatever the parameters |
| Rbac.OwnershipWithoutIdOrParam | backend/src/middleware/rbac.js:97-108 | a user without an id passes the ownership guard of a route that lacks the parameter, because `undefined === undefined` |
| AuthMiddleware.BearerToken | backend/src/middleware/auth.js:10-19 | a token exists iff the header starts with "Bearer ", and the header is that prefix followed by the token |
| AuthMiddleware.PrincipalOf | backend/src/middleware/auth.js:32-37 | `req.user` copies id, username and email, defaults roles to `[]`, and has no permissions |
| AuthMiddleware.VerifyFailure | backend/src/middleware/auth.js:40-59 | JsonWebTokenError gives 401 "Invalid token", TokenExpiredError gives 401 "Token expired", any other error 500 "Authentication failed" |
| AuthMiddleware.Authenticate | backend/src/middleware/auth.js:7-61 | no bearer token gives 401 "No token provided"; authenticated iff the token verifies, and then the user is the decoded principal |
| AuthMiddleware.OptionalAuth | backend/src/middleware/auth.js:66-87 | without a bearer token the request is left as it is; never refuses |
| AuthMiddleware.BearerTokenRoundTrip | backend/src/middleware/auth.js:12-19 | extracting the token from "Bearer " + t gives back t |
| AuthMiddleware.LowercaseBearerRefused | backend/src/middleware/auth.js:12-17 | the prefix check is case-sensitive: "bearer t" is refused with 401 |
| AuthMiddleware.AuthenticatedUsersLackPermissions | backend/src/middleware/auth.js:32-37 | behind `authenticate`, every permission guard refuses, since the principal carries no permissions |
| AuthMiddleware.OptionalAuthAgreesWithAuthenticate | backend/src/middleware/auth.js:66-87 | optional auth sets the same user that `authenticate` accepts, and leaves the request unchanged otherwise |
| AuthController.Refusal | backend/src/controllers/authController.js:50-170 | 401 iff wrong password, with "Invalid username or password"; 403 iff deactivated, locked or locked by this attempt, each with its own message; a failed password comparison gives the catch block's 500 "An error occurred during login" |
| AuthController.WithoutNulls | backend/src/controllers/authController.js:122 | keeps exactly the non-null role names |
| AuthController.Account.constructor | backend/src/controllers/authController.js:47 | an account row with the given profile and lock state |
| AuthController.Account.Attempt | backend/src/controllers/authController.js:49-163 | the new lock state is the login transition of the old one, and the reply is the refusal for its outcome or, when accepted, the token claims and profile of this row with its non-null roles; if the update of the lockout columns throws, the columns keep their old values and the reply is 500 "An error occurred during login" |
| AuthController.Account.CheckPassword | backend/src/controllers/authController.js:65-163 | after the password comparison the lock state is the password transition of the old one: a mismatch counts one more failure and locks the row for 30 minutes at the fifth, a match clears counter and lock and records the login; the reply is the refusal or the session; a failing update changes nothing and answers 500 |
| AuthController.Login | backend/src/controllers/authController.js:10-171 | falsy username or password gives 400 with the state unchanged; a query that throws gives 500 with the state unchanged; an unknown user gives 401; otherwise the transition applies, and an accepted login answers the claims and profile of the row found, a refused one its refusal; a failing write answers 500 and changes nothing; token roles equal user roles |
| AuthController.RefreshToken | backend/src/controllers/authController.js:176-250 | a falsy token gives 400; an error thrown by the token check or by the query goes to the catch block; refreshed iff the user exists and is active, else 401 "Invalid refresh token"; new claims carry the row's non-null roles |
| AuthController.RefreshCatch | backend/src/controllers/authController.js:236-249 | 401 "Invalid or expired refresh token" iff the error is a JsonWebTokenError or TokenExpiredError, else 500 "An error occurred while refreshing token" |
| AuthController.CheckOrder | backend/src/controllers/authController.js:49-68 | deactivation is checked before the lock, and the lock before the password; acceptance needs an active, unlocked account and a matching password |
| AuthController.WrongPasswordCounts | backend/src/controllers/authController.js:68-105 | a wrong password adds one failed attempt, and locks for 30 minutes from the fifth |
| AuthController.SuccessResets | backend/src/controllers/authController.js:108-119 | a successful login clears the counter and the lock |
| AuthController.LockLastsThirtyMinutes | backend/src/controllers/authController.js:58-75 | after the locking failure the account is locked at a later time iff that time is under 30 minutes later |
| AuthController.RelockAfterExpiry | backend/src/controllers/authController.js:58-90 | once a lock expires without a reset, the next wrong password locks again at once |
| AuthController.WrongPasswordsBelowThreshold | backend/src/controllers/authController.js:70-99 | k wrong passwords below the threshold only raise the counter by k |
| AuthController.FifthFailureLocks | backend/src/controllers/authController.js:70-90 | from a clean account, the fifth consecutive wrong password locks it, and a sixth try is refused as locked |
| AuthController.WrongPasswordsSplit | backend/src/controllers/authController.js:68-99 | k+1 wrong passwords are k wrong passwords followed by one more |
| AuthController.WithoutNullsAppend | backend/src/controllers/authController.js:122 | filtering distributes over concatenation |
| AuthController.NoRoleUserHasEmptyRoles | backend/src/controllers/authController.js:122 | a user whose role aggregate is `[null]` gets no roles |
| RoleController.NameCheck | backend/src/controllers/roleController.js:83-88 | 400 "Role name is required" iff the name is falsy or a blank string; passes iff it is a string with a visible character; a truthy non-string throws a TypeError |
| RoleController.NameWithVisibleCharAccepted | backend/src/controllers/roleController.js:83 | a name with any non-whitespace character passes the check |
| RoleController.BlankNameRefused | backend/src/controllers/roleController.js:83-88 | an all-whitespace name is refused with 400 |
| RoleController.CreateRole | backend/src/controllers/roleController.js:78-133 | 201 iff the name passes, is not exactly "SYSTEM_ADMIN", and nothing fails; the reply echoes name and description; "SYSTEM_ADMIN" gives the reserved 400; an error thrown after validation is answered by `CreateFailure` (409 for the unique constraint) |
| RoleController.CreateFailure | backend/src/controllers/roleController.js:123-133 | 409 "Role with this name already exists" iff the error is a unique-constraint violation; any other error is handed on unchanged |
| RoleController.ReservedNameIsExact | backend/src/controllers/roleController.js:91 | "system_admin" and " SYSTEM_ADMIN" are not caught by the reserved-name check |
| RoleController.AssignPermissions | backend/src/controllers/roleController.js:244-279 | 400 "Permissions array is required" iff the permissions are not an array |
| RoleController.GetAllRoles | backend/src/controllers/roleController.js:12-40 | the count equals the list length; the list is the one SYSTEM_ADMIN system role |
| RoleController.UpdateRoleLive | backend/src/controllers/roleController.js:140-186 | answers 200 "Role updated successfully" for any id |
| RoleController.DeleteRoleLive | backend/src/controllers/roleController.js:193-237 | answers 200 "Role deleted successfully" for any id |
| RoleController.StoredDescription | backend/src/controllers/roleController.js:102 | throws iff the description is neither absent, null nor a string; a non-blank string is stored trimmed, anything else as null |
| RoleController.CreateRefusal | backend/src/controllers/roleController.js:83-103 | the early replies in order: name check, reserved name, then TypeError from a description `trim` cannot handle |
| RoleController.IndexOf | backend/src/controllers/roleController.js:147 | finds the role with the id, or reports that none has it |
| RoleController.RoleRegistry.constructor | backend/src/controllers/roleController.js:21-35 | the store starts with the seeded SYSTEM_ADMIN system role |
| RoleController.RoleRegistry.Create | backend/src/controllers/roleController.js:78-133 | early refusals leave the store unchanged; a trimmed name already present gives 409; otherwise the role is appended and 201 is returned; uniqueness is kept |
| RoleController.RoleRegistry.Update | backend/src/controllers/roleController.js:145-173 | 404 unknown id; 403 system role; a truthy non-string name or an unstorable description throws; a new name already taken fails on the unique constraint; otherwise 200, and the entry is replaced by one with the trimmed new name or the old one, the new description or the old one, and the new permission array or the old one; every other entry is unchanged, and nothing changes on any failure |
| RoleController.RoleRegistry.Delete | backend/src/controllers/roleController.js:197-225 | 404, 403 system role, 409 with the holder count while users hold the role; an unheld non-system role is removed with 200, exactly that entry, the others keeping their order; 200 iff the entry is removed |
| RoleController.RoleRegistry.AssignPermissions | backend/src/controllers/roleController.js:244-267 | 400 without an array; 404 unknown id; otherwise only that role's permissions are replaced |
| RoleController.RoleRegistry.SetHolders | backend/src/controllers/roleController.js:217 | records the user count of a role without touching the roles |
| RoleController.AppendPreservesValid | backend/src/controllers/roleController.js:98-110 | appending a non-system role with a fresh id and free name keeps ids and names unique and the system role seeded |
| RoleController.UpdatePreservesValid | backend/src/controllers/roleController.js:145-173 | replacing an entry with one of the same id and system flag and a free or unchanged name keeps the store well formed |
| RoleController.DeletePreservesValid | backend/src/controllers/roleController.js:197-225 | removing a non-system entry keeps the store well formed |
| AuditLog.Spread | backend/src/middleware/auditLog.js:47 | `{ ...data }` keeps an object's properties, and indexes a string's characters and an array's elements |
| AuditLog.SanitizeData | backend/src/middleware/auditLog.js:44-57 | the loop's result equals the sanitized body: null for falsy data, else the spread copy with each truthy sensitive field redacted |
| AuditLog.RedactStep | backend/src/middleware/auditLog.js:48-54 | one loop step redacts exactly the next field when it is truthy |
| AuditLog.RedactLookup | backend/src/middleware/auditLog.js:50-54 | a key exists after redaction iff before; it is redacted iff it is a truthy sensitive field, else unchanged |
| AuditLog.SanitizedKeepsKeys | backend/src/middleware/auditLog.js:47-54 | a sanitized body has the same keys in the same order as the copy |
| AuditLog.SanitizedFields | backend/src/middleware/auditLog.js:48-54 | a field reads "***REDACTED***" iff it is a truthy sensitive field, else its own value |
| AuditLog.SanitizedNullIff | backend/src/middleware/auditLog.js:45 | the result is null iff the data is falsy |
| AuditLog.SanitizeIdempotent | backend/src/middleware/auditLog.js:44-57 | sanitizing twice is sanitizing once |
| AuditLog.OrElse | backend/src/middleware/auditLog.js:21 | the first operand when it is a non-empty string, else the second, as JavaScript `or` does |
| AuditLog.StatusOf | backend/src/middleware/auditLog.js:23 | FAILURE iff the status code is at least 400, else SUCCESS |
| AuditLog.ResourceType | backend/src/middleware/auditLog.js:19 | the text after the last '/' of the base URL, a non-empty suffix without '/'; "unknown" when that text is empty, so for an empty URL or one ending in '/' |
| AuditLog.AuditRecord | backend/src/middleware/auditLog.js:16-27 | status, user id, resource id, action, sanitized body, response status and duration are as the request and response dictate; the resource type is that of the base URL, the IP address is `req.ip` or else the socket address, and the user agent is the request's |
| AuditLog.RecordRedactsSecrets | backend/src/middleware/auditLog.js:25 | a truthy sensitive field of the request body is logged redacted |
| AuditLog.CreateAuditLog | backend/src/middleware/auditLog.js:62-72 | always reports the entry as saved |
| Text.TrimEmptyIff | backend/src/controllers/roleController.js:83 | `trim()` is empty iff every character is JavaScript whitespace |
| Text.TrimShape | backend/src/controllers/roleController.js:100 | a trimmed string neither starts nor ends with whitespace |
| Text.LastSegment | backend/src/middleware/auditLog.js:19 | `split('/').pop()` is the suffix after the last slash and holds no slash; it is empty iff the string is empty or ends with a slash |
| Values.Assign | backend/src/services/formEngine.js:165 | property assignment: the key now maps to the value, other keys are unchanged, keys stay unique |
| SignatureService.Stringify | backend/src/services/signatureService.js:65 | `JSON.stringify` returns undefined iff the value is undefined |
| SignatureService.Canonical | backend/src/services/signatureService.js:65 | strings are hashed as they are, everything else as its JSON text |
| SignatureService.GenerateHash | backend/src/services/signatureService.js:62-67 | throws iff the data is undefined; otherwise the hash of the canonical text |
| SignatureService.EscapeRoundTrip | backend/src/services/signatureService.js:65 | decoding the JSON escaping of a string gives the string back |
| SignatureService.QuoteInjective | backend/src/services/signatureService.js:65 | distinct strings have distinct JSON literals |
| SignatureService.StringAndJsonCollide | backend/src/services/signatureService.js:65 | the string "null" and null, and "true" and true, hash the same |
| SignatureService.CreateSignature | backend/src/services/signatureService.js:14-38 | throws iff the data is undefined; the record binds user, application, step and data to the hash of the data; the ip is `req.ip` when non-empty, else the remote address; id, user agent and signing time are the given UUID, the request's user agent and the clock |
| SignatureService.VerifyIntended | backend/src/services/signatureService.js:43-57 | throws iff the stored data is undefined (the catch block rethrows the hash's TypeError); otherwise true iff the recomputed hash equals the stored hash |
| SignatureService.VerifySignatureLive | backend/src/services/signatureService.js:43-57 | reports every signature valid |
| SignatureService.CreatedSignatureVerifies | backend/src/services/signatureService.js:14-50 | a freshly created record verifies |
| SignatureService.TamperingDetected | backend/src/services/signatureService.js:48-50 | with a collision-free hash, data with another canonical text fails verification |
| SignatureService.StringDataBound | backend/src/services/signatureService.js:48-50 | with a collision-free hash, only one string verifies against a record |
| SignatureService.VerifyDocumentSignature | backend/src/services/signatureService.js:124-136 | true iff the RSA check returns true; a throw gives false |
| WorkflowEngine.ParseAction | backend/src/services/workflowEngine.js:103-109 | a recognised action is the name of its handler |
| WorkflowEngine.ParseActionRoundTrip | backend/src/services/workflowEngine.js:103-109 | each handler is reached through its own name |
| WorkflowEngine.Handle | backend/src/services/workflowEngine.js:123-151 | every handler reports success |
| WorkflowEngine.HandleInjective | backend/src/services/workflowEngine.js:123-151 | distinct handlers report distinct results |
| WorkflowEngine.ProcessActionAsWritten | backend/src/services/workflowEngine.js:101-121 | an inherited `Object.prototype` member is dispatched instead of refused, iff the name is not a handler but is such a member |
| WorkflowEngine.ProcessAction | backend/src/services/workflowEngine.js:101-121 | handled iff the action is one of the five names, always with success; otherwise "Unknown action: " + action |
| WorkflowEngine.ProcessActionResults | backend/src/services/workflowEngine.js:103-151 | each action yields its own past-tense result |
| WorkflowEngine.PrototypeMemberAccepted | backend/src/services/workflowEngine.js:111-114 | "toString" reaches the prototype as written, and is refused by the corrected dispatch |
| WorkflowEngine.AsWrittenAgreesElsewhere | backend/src/services/workflowEngine.js:101-121 | outside the prototype's members the two dispatches agree |
| WorkflowEngine.GetAvailableActions | backend/src/services/workflowEngine.js:82-96 | three actions, each accepted by the dispatch |
| WorkflowEngine.AllPassed | backend/src/services/workflowEngine.js:69-72 | `every(v => v.passed)` over truthiness |
| WorkflowEngine.CompletionOf | backend/src/services/workflowEngine.js:59-77 | a step can complete iff every validation passed |
| WorkflowEngine.OneFailureBlocks | backend/src/services/workflowEngine.js:69-72 | one failing validation blocks completion |
| WorkflowEngine.ValidateStepCompletion | backend/src/services/workflowEngine.js:59-77 | with no validations yet, every step can complete |
| WorkflowEngine.InitializeWorkflow | backend/src/services/workflowEngine.js:12-30 | success with no current step |
| WorkflowEngine.MoveToNextStep | backend/src/services/workflowEngine.js:35-54 | success with no next step |
| WorkflowEngine.EvaluateConditions | backend/src/services/workflowEngine.js:180-195 | conditions met, no next step |
| FormEngine.PositiveLimit | backend/src/services/formEngine.js:85-90 | a length limit applies iff it is given and non-zero, as `if (rules.minLength)` reads it |
| FormEngine.NonEmpty | backend/src/services/formEngine.js:91-93 | a pattern applies iff it is a non-empty string |
| FormEngine.BuildSchema | backend/src/services/formEngine.js:72-173 | the loop builds the fold of the fields, and the keys are unique |
| FormEngine.SchemaOfMissing | backend/src/services/formEngine.js:165 | a name no field carries has no schema entry |
| FormEngine.SchemaOfLast | backend/src/services/formEngine.js:79-165 | a repeated name keeps the schema of its last field, because a later assignment overwrites an earlier one |
| FormEngine.StringErrors | backend/src/services/formEngine.js:83-105 | no errors iff the length limits and the pattern are met |
| FormEngine.FieldErrors | backend/src/services/formEngine.js:158-163 | a missing value gives "any.required" iff the field is required; optional fields accept null and "" |
| FormEngine.Details | backend/src/services/formEngine.js:50-54 | one detail per error type, naming the field |
| FormEngine.AllErrorsEmptyIff | backend/src/services/formEngine.js:42-47 | no errors iff every field has none (`abortEarly: false`) |
| FormEngine.AllErrorsNameFields | backend/src/services/formEngine.js:50-51 | every reported error names a key of the schema |
| FormEngine.Known | backend/src/services/formEngine.js:44 | keeps exactly the properties the schema knows (`stripUnknown`) |
| FormEngine.ValidateFormData | backend/src/services/formEngine.js:37-67 | undefined data is valid; non-object data fails with "object.base"; an object is valid iff no field has an error, and then the data is its known properties; errors name schema fields |
| FormEngine.MissingRequiredField | backend/src/services/formEngine.js:159-160 | a required field absent from the data makes the form invalid with "any.required" for it |
| FormEngine.AllErrorsContain | backend/src/services/formEngine.js:42-55 | every error of every field is reported |
| FormEngine.OptionalAcceptsBlank | backend/src/services/formEngine.js:162 | an optional field accepts undefined, null and "" |
| FormEngine.RequiredTextRefusesBlank | backend/src/services/formEngine.js:83-160 | a required text field refuses null and "" |
| FormEngine.ZeroMinLengthIgnored | backend/src/services/formEngine.js:85-87 | a minimum length of 0 is dropped by the truthiness test |
| FormEngine.ZeroNumberBoundHonoured | backend/src/services/formEngine.js:109-111 | a numeric minimum of 0 is applied (`!== undefined`): -1 fails and 0 passes |
| FormEngine.ChoiceFields | backend/src/services/formEngine.js:131-138 | select and radio with a non-empty option list accept exactly the listed options, and report "any.only" followed by "string.base" or "string.empty" for a non-string or empty value; without options or with an empty list, any non-empty string |
| FormEngine.CheckboxAndUnknownTypes | backend/src/services/formEngine.js:140-155 | a checkbox accepts exactly booleans; an unknown type accepts anything |
| FormEngine.LiveSchemaAcceptsAnyObject | backend/src/services/formEngine.js:75 | with the empty field list every object is valid and stripped to `{}` |
| AuthContext.AnyNamed | frontend/src/contexts/AuthContext.js:72-75 | true iff some entry is the name as a string, or an object with that truthy name |
| AuthContext.HasRole | frontend/src/contexts/AuthContext.js:68-76 | false without a user or roles; otherwise iff some role entry names the role |
| AuthContext.HasPermission | frontend/src/contexts/AuthContext.js:82-90 | the same test over the permissions |
| AuthContext.IsSystemAdmin | frontend/src/contexts/AuthContext.js:95-97 | iff the user has the SYSTEM_ADMIN role |
| AuthContext.ClientAgreesWithServer | frontend/src/contexts/AuthContext.js:72-75 | for a non-empty name the client's role test and the server's `requireRole` test agree |
| AuthContext.EmptyNameDisagreement | frontend/src/contexts/AuthContext.js:74 | for the empty name they differ on a role object named "" |
| AuthContext.Expired | frontend/src/contexts/AuthContext.js:24 | expired iff `exp * 1000 < now`, stated in whole seconds; never without `exp` |
| AuthContext.FailureMessage | frontend/src/contexts/AuthContext.js:52 | the server's message when present and non-empty, else "Login failed" |
| AuthContext.AuthSession.constructor | frontend/src/contexts/AuthContext.js:9-10 | no user, loading, and the stored token |
| AuthContext.AuthSession.Logout | frontend/src/contexts/AuthContext.js:57-62 | token, header and user cleared; navigates to /login |
| AuthContext.AuthSession.CheckAuth | frontend/src/contexts/AuthContext.js:17-36 | loading ends; without a token nothing else changes; an undecodable or expired token logs out; otherwise the user and the header are set |
| AuthContext.AuthSession.Login | frontend/src/contexts/AuthContext.js:38-55 | success stores token, header and user and goes to /dashboard; failure reports the message and changes nothing |
| AppRoutes.ProtectedRoute | frontend/src/App.js:213-235 | placeholder while loading; /login without a user; /dashboard for a missing role, and for a missing permission once the role check passes; renders iff signed in with the required role and permission |
| AppRoutes.Match | frontend/src/App.js:241-322 | fixed paths first, then `/applications/:id`, else no match |
| AppRoutes.AdminPages | frontend/src/App.js:288-319 | /workflows, /users and /roles render iff the user is a SYSTEM_ADMIN; others are sent to /dashboard |
| AppRoutes.Visit | frontend/src/App.js:237-325 | no screen iff no route matches; a public page or the `/` redirect never waits for the session; a guarded page renders iff the session has loaded, a user is signed in and any required role is held |
| AppRoutes.SignedInGuard | frontend/src/App.js:220-222 | with no role required, the guard renders iff a user is signed in, and otherwise redirects to /login |
| AppRoutes.AdminRoute | frontend/src/App.js:288-319 | the three admin paths are guarded by SYSTEM_ADMIN |
| AppRoutes.AdminGuard | frontend/src/App.js:225-227 | the SYSTEM_ADMIN guard renders iff the user is one |
| AppRoutes.SignedInPages | frontend/src/App.js:244-286 | dashboard and application pages render iff signed in, else redirect to /login |
| AppRoutes.DetailRoute | frontend/src/App.js:277-286 | a path `/applications/<segment>` other than `/applications/new` selects the guarded detail page |
| AppRoutes.LoadingShowsPlaceholder | frontend/src/App.js:216-218 | every guarded page shows the placeholder while loading |
| AppRoutes.RootAndLogin | frontend/src/App.js:242-321 | / redirects to /dashboard and /login always renders |

Members without a row are the reference definitions the rows' contracts are
stated against, such as `FormEngine.RuleFor`, `FormEngine.SchemaOf`,
`FormEngine.AllErrors`, `FormEngine.RuleErrors`, `AuthController.LoginTransition`,
`AuthController.PasswordTransition` and `AuditLog.RedactOnly`, together with the
JavaScript primitives of the `Values` and `Text` modules.

## Left out

- Database queries are not modelled. The row a query returns, and whether a
  query or a write throws, are parameters.
- Logging (`logger.*`) and `res.json` wrapping are not modelled; the audit
  record is built but not emitted.
- bcrypt, `jwt.sign`/`jwt.verify`, `jwtDecode`, SHA-256, RSA/PEM parsing and
  base64 are oracles; the clock and UUIDs are parameters.
- Numbers are integers only: floats, NaN and number formatting other than
  integer decimal are not modelled.
- Object keys that look like integers are kept in insertion order. JavaScript
  would list them first in spread and `JSON.stringify`.
- Strings are sequences of code points. JavaScript lengths and string spread
  count UTF-16 units.
- FormEngine.ValidateFormData: Joi's convert mode is not modelled. The real
  validator turns numeric strings into numbers, "true"/"false" into booleans,
  and date strings into dates.
- FormEngine.ValidateFormData: error details carry the field and the error
  type, but not Joi's generated message text.
- FormEngine.RuleErrors: non-string options, and negative or fractional
  length limits (Joi rejects these when the schema is built), are not
  modelled. Number limits may be negative; fractional ones fall under the
  integers-only line above.
- FormEngine.Lib: regular-expression matching, e-mail syntax and date
  comparison (including "now") are parameters.
- `generateFormSchema`, `transformFormData`, `getFieldDependencies` and
  `generateFormConfig` are not modelled. They return constant placeholders
  and nothing else depends on them.
- `getWorkflowProgress` and `sendWorkflowNotification` are not modelled. They
  return constants or only log. The step graph itself exists only in
  comments.
- `getSignatureAuditTrail` and `validateSignatureRequirements` are not
  modelled. They return constant placeholders.
- `generateCertificate` and `signDocument` are not modelled. They are key
  generation and RSA signing, which are outside the model.
- `getRoleById` is not modelled. It answers success with null data for every
  id.
- `logout` in the auth controller is not modelled. It only logs and answers
  success.
- `getUserPermissions` in rbac.js is not modelled. It is not exported and
  returns an empty list.
- WorkflowEngine.ProcessAction: the action is a string. Non-string actions
  would be converted to a property key first.
- AuthContext.HasRole: role entries that are null are not modelled. They would
  make the client's test throw, and the server filters them out.
- RoleController.RoleRegistry.Update: `req.user.id` in the log line is not
  modelled. It would throw only on a route without `authenticate`.
- AppRoutes.Match: React Router's case-insensitive matching and trailing
  slashes are not modelled.
- AuthContext.AuthSession: React rendering, effects and the asynchronous order
  of state updates are not modelled.

## Findings

| source | as written | input that shows it | evidently intended | confidence | as-written member | corrected member |
|---|---|---|---|---|---|---|
| backend/src/services/workflowEngine.js:103-114 | `actionHandlers[action]` also finds properties inherited from `Object.prototype`, so the "Unknown action" error is skipped for them | `processAction(id, 'toString', data, user)` calls `Object.prototype.toString` and resolves instead of throwing | only the five handler names are dispatched; every other action throws "Unknown action: …" | not executed | WorkflowEngine.ProcessActionAsWritten | WorkflowEngine.ProcessAction |

=== FILE: app_routes.dfy ===
/** The route guard and the route table of frontend/src/App.js. */
module AppRoutes {
  import opened Values
  import opened Text
  import AuthContext

  /** What a route shows. */
  datatype Screen =
    | Placeholder            // the loading text
    | Redirect(to: string)   // `<Navigate to=... replace />`
    | Render(page: string)   // the page, inside the layout
    | NoMatch                // no route matches the path

  /** `ProtectedRoute`: loading first, then the user, then the role, then the
      permission; an empty requirement counts as none. */
  function ProtectedRoute(loading: bool, user: Option<AuthContext.ClientUser>,
                          requiredRole: Option<string>, requiredPermission: Option<string>,
                          page: string): (s: Screen)
    ensures loading ==> s == Placeholder
    ensures !loading && user.None? ==> s == Redirect("/login")
    ensures !loading && user.Some? && Filled(requiredRole) && !AuthContext.HasRole(user, requiredRole.value) ==>
              s == Redirect("/dashboard")
    ensures !loading && user.Some? && (!Filled(requiredRole) || AuthContext.HasRole(user, requiredRole.value)) &&
            Filled(requiredPermission) && !AuthContext.HasPermission(user, requiredPermission.value) ==>
              s == Redirect("/dashboard")
    ensures s == Render(page) <==>
              !loading && user.Some? &&
              (!Filled(requiredRole) || AuthContext.HasRole(user, requiredRole.value)) &&
              (!Filled(requiredPermission) || AuthContext.HasPermission(user, requiredPermission.value))
    ensures s in {Placeholder, Redirect("/login"), Redirect("/dashboard"), Render(page)}
  {
    if loading then Placeholder
    else if user.None? then Redirect("/login")
    else if Filled(requiredRole) && !AuthContext.HasRole(user, requiredRole.value) then Redirect("/dashboard")
    else if Filled(requiredPermission) && !AuthContext.HasPermission(user, requiredPermission.value) then
      Redirect("/dashboard")
    else Render(page)
  }

  /** A route's element. */
  datatype Element =
    | Public(page: string)
    | Guarded(requiredRole: Option<string>, page: string)
    | Forward(to: string)

  /** The routes with a fixed path. */
  const StaticRoutes: seq<(string, Element)> := [
    ("/login", Public("Login")),
    ("/dashboard", Guarded(None, "Dashboard")),
    ("/applications", Guarded(None, "Applications")),
    ("/applications/new", Guarded(None, "NewApplication")),
    ("/workflows", Guarded(Some("SYSTEM_ADMIN"), "WorkflowManagement")),
    ("/users", Guarded(Some("SYSTEM_ADMIN"), "UserManagement")),
    ("/roles", Guarded(Some("SYSTEM_ADMIN"), "RoleManagement")),
    ("/", Forward("/dashboard"))]

  const DetailPrefix := "/applications/"

  /** `/applications/:id`: one non-empty segment after the prefix. */
  predicate IsDetailPath(path: string) {
    StartsWith(path, DetailPrefix) && |path| > |DetailPrefix| && '/' !in path[|DetailPrefix|..]
  }

  /** The element a path selects; a fixed path ranks above the dynamic one. */
  function Match(path: string): (e: Option<Element>)
    ensures Lookup(StaticRoutes, path).Some? ==> e == Lookup(StaticRoutes, path)
    ensures Lookup(StaticRoutes, path).None? ==>
              e == (if IsDetailPath(path) then Some(Guarded(None, "ApplicationDetail")) else None)
  {
    match Lookup(StaticRoutes, path)
    case Some(el) => Some(el)
    case None => if IsDetailPath(path) then Some(Guarded(None, "ApplicationDetail")) else None
  }

  /** The screen for `path` in the given session state: an unmatched path
      shows nothing, a public page or a redirect route does not wait for the
      session, and a guarded page goes through its guard. */
  function Visit(path: string, loading: bool, user: Option<AuthContext.ClientUser>): (s: Screen)
    ensures s == NoMatch <==> Match(path).None?
    ensures Match(path).Some? && !Match(path).value.Guarded? ==> s != Placeholder
    ensures Match(path).Some? && Match(path).value.Guarded? ==>
              (s.Render? <==>
                 !loading && user.Some? &&
                 (!Filled(Match(path).value.requiredRole) ||
                  AuthContext.HasRole(user, Match(path).value.requiredRole.value)))
  {
    match Match(path)
    case None => NoMatch
    case Some(Public(page)) => Render(page)
    case Some(Forward(to)) => Redirect(to)
    case Some(Guarded(role, page)) => ProtectedRoute(loading, user, role, None, page)
  }

  /** The administration pages render exactly for a signed-in system
      administrator; anyone else signed in is sent to the dashboard. */
  lemma {:induction false} AdminPages(path: string, user: Option<AuthContext.ClientUser>)
    requires path in {"/workflows", "/users", "/roles"}
    ensures Visit(path, false, user).Render? <==> user.Some? && AuthContext.IsSystemAdmin(user)
    ensures user.Some? && !AuthContext.IsSystemAdmin(user) ==> Visit(path, false, user) == Redirect("/dashboard")
  {
    var page := if path == "/workflows" then "WorkflowManagement"
                else if path == "/users" then "UserManagement" else "RoleManagement";
    AdminRoute(path, page);
    AdminGuard(user, page);
  }

  lemma {:induction false} AdminRoute(path: string, page: string)
    requires path in {"/workflows", "/users", "/roles"}
    requires page == if path == "/workflows" then "WorkflowManagement"
                     else if path == "/users" then "UserManagement" else "RoleManagement"
    ensures Match(path) == Some(Guarded(Some("SYSTEM_ADMIN"), page))
  {
    // the keys before the admin entries differ from each admin path in length
    // or in the second character
    if path == "/workflows" {
      assert path[1] == 'w';
      LookupFirst(StaticRoutes, path, 4);
    } else if path == "/users" {
      assert path[1] == 'u';
      LookupFirst(StaticRoutes, path, 5);
    } else {
      assert path[1] == 'r';
      LookupFirst(StaticRoutes, path, 6);
    }
  }

  lemma {:induction false} AdminGuard(user: Option<AuthContext.ClientUser>, page: string)
    ensures ProtectedRoute(false, user, Some("SYSTEM_ADMIN"), None, page).Render? <==>
              user.Some? && AuthContext.IsSystemAdmin(user)
    ensures user.Some? && !AuthContext.IsSystemAdmin(user) ==>
              ProtectedRoute(false, user, Some("SYSTEM_ADMIN"), None, page) == Redirect("/dashboard")
  {
  }

  /** The dashboard and the application pages need a signed-in user only. */
  lemma {:induction false} SignedInPages(path: string, user: Option<AuthContext.ClientUser>)
    requires path in {"/dashboard", "/applications", "/applications/new"} || IsDetailPath(path)
    ensures Visit(path, false, user).Render? <==> user.Some?
    ensures user.None? ==> Visit(path, false, user) == Redirect("/login")
  {
    var page: string;
    if path == "/dashboard" {
      LookupFirst(StaticRoutes, "/dashboard", 1);
      page := "Dashboard";
    } else if path == "/applications" {
      LookupFirst(StaticRoutes, "/applications", 2);
      page := "Applications";
    } else if path == "/applications/new" {
      LookupFirst(StaticRoutes, "/applications/new", 3);
      page := "NewApplication";
    } else {
      DetailRoute(path);
      page := "ApplicationDetail";
    }
    assert Match(path) == Some(Guarded(None, page));
    SignedInGuard(user, page);
  }

  /** A guard without a required role renders for any signed-in user and
      sends everyone else to the login page. */
  lemma {:induction false} SignedInGuard(user: Option<AuthContext.ClientUser>, page: string)
    ensures ProtectedRoute(false, user, None, None, page).Render? <==> user.Some?
    ensures user.None? ==> ProtectedRoute(false, user, None, None, page) == Redirect("/login")
  {
  }

  /** A detail path other than `/applications/new` is longer than every fixed
      path but that one, so it reaches the dynamic route. */
  lemma {:induction false} DetailRoute(path: string)
    requires IsDetailPath(path) && path != "/applications/new"
    ensures Match(path) == Some(Guarded(None, "ApplicationDetail"))
  {
    assert |path| > 14;
    forall j | 0 <= j < |StaticRoutes| ensures StaticRoutes[j].0 != path {
      if j != 3 {
        assert |StaticRoutes[j].0| <= 13;
      }
    }
  }

  /** While the session loads, every guarded page shows the placeholder. */
  lemma {:induction false} LoadingShowsPlaceholder(path: string, user: Option<AuthContext.ClientUser>)
    requires Match(path).Some? && Match(path).value.Guarded?
    ensures Visit(path, true, user) == Placeholder
  {
  }

  /** `/` sends to the dashboard and `/login` is open to everyone. */
  lemma {:induction false} RootAndLogin(loading: bool, user: Option<AuthContext.ClientUser>)
    ensures Visit("/", loading, user) == Redirect("/dashboard")
    ensures Visit("/login", loading, user) == Render("Login")
  {
    LookupFirst(StaticRoutes, "/", 7);
    LookupFirst(StaticRoutes, "/login", 0);
  }
}

=== FILE: audit_log.dfy ===
/** The audit middleware of backend/src/middleware/auditLog.js: the record it
    builds for each response and the redaction of sensitive request fields.
    Writing the record to the logger and wrapping `res.json` are left out. */
module AuditLog {
  import opened Values
  import opened Text

  const SensitiveFields := ["password", "password_hash", "token", "secret", "api_key"]
  const RedactedText := "***REDACTED***"

  /** `{ ...data }` for a truthy `data`: an object's own properties, the
      characters of a string or the elements of an array under their indices,
      and no properties for a number or `true`. */
  function Spread(data: Value): (ps: seq<(string, Value)>)
    ensures data.Obj? ==> ps == data.fields
    ensures data.Str? ==> |ps| == |data.s|
    ensures data.Arr? ==> |ps| == |data.items|
  {
    match data
    case Obj(fields) => fields
    case Str(s) => seq(|s|, i requires 0 <= i < |s| => (NatToString(i), Str([s[i]])))
    case Arr(items) => seq(|items|, i requires 0 <= i < |items| => (NatToString(i), items[i]))
    case _ => []
  }

  /** The copy after the redaction loop has handled the fields `fs`: a pair
      whose key is among them, and whose property reads as truthy, holds the
      redaction marker. */
  function RedactOnly(ps: seq<(string, Value)>, fs: seq<string>): seq<(string, Value)> {
    seq(|ps|, i requires 0 <= i < |ps| =>
      if ps[i].0 in fs && Truthy(Get(ps, ps[i].0)) then (ps[i].0, Str(RedactedText)) else ps[i])
  }

  /** `sanitizeData(data)`: `null` for a falsy input, otherwise the shallow copy
      with every sensitive field that reads as truthy redacted. */
  function Sanitized(data: Value): Value {
    if !Truthy(data) then Null else Obj(RedactOnly(Spread(data), SensitiveFields))
  }

  /** `sanitizeData`, as the loop over the sensitive fields that overwrites
      them in the copy one at a time. */
  method SanitizeData(data: Value) returns (r: Value)
    ensures r == Sanitized(data)
  {
    if !Truthy(data) {
      return Null;
    }
    var original := Spread(data);
    var sanitized := original;
    var i := 0;
    while i < |SensitiveFields|
      invariant 0 <= i <= |SensitiveFields|
      invariant sanitized == RedactOnly(original, SensitiveFields[..i])
    {
      var field := SensitiveFields[i];
      RedactStep(original, SensitiveFields[..i], field);
      if Truthy(Get(sanitized, field)) {
        sanitized := Replace(sanitized, field, Str(RedactedText));
      }
      assert SensitiveFields[..i + 1] == SensitiveFields[..i] + [field];
      i := i + 1;
    }
    assert SensitiveFields[..i] == SensitiveFields;
    r := Obj(sanitized);
  }

  /** One turn of the redaction loop: a field not handled yet still reads as in
      the original, and handling it redacts its pairs exactly when it is truthy. */
  lemma {:induction false} RedactStep(ps: seq<(string, Value)>, fs: seq<string>, field: string)
    requires field !in fs
    ensures Get(RedactOnly(ps, fs), field) == Get(ps, field)
    ensures RedactOnly(ps, fs + [field]) ==
              if Truthy(Get(ps, field)) then Replace(RedactOnly(ps, fs), field, Str(RedactedText))
              else RedactOnly(ps, fs)
  {
    var r := RedactOnly(ps, fs);
    LookupAgree(ps, r, field);
    var r' := RedactOnly(ps, fs + [field]);
    if Truthy(Get(ps, field)) {
      var q := Replace(r, field, Str(RedactedText));
      assert forall i :: 0 <= i < |ps| ==> r'[i] == q[i];
    } else {
      assert forall i :: 0 <= i < |ps| ==> r'[i] == r[i];
    }
  }

  /** Reading a key of the redacted copy gives the marker when the key is one
      of `fs` and reads as truthy in the original, and the original value
      otherwise; no key appears or disappears. */
  lemma {:induction false} RedactLookup(ps: seq<(string, Value)>, fs: seq<string>, k: string)
    ensures Lookup(RedactOnly(ps, fs), k).None? <==> Lookup(ps, k).None?
    ensures Lookup(ps, k).Some? && k in fs && Truthy(Get(ps, k)) ==>
              Lookup(RedactOnly(ps, fs), k) == Some(Str(RedactedText))
    ensures !(k in fs && Truthy(Get(ps, k))) ==> Lookup(RedactOnly(ps, fs), k) == Lookup(ps, k)
  {
    var r := RedactOnly(ps, fs);
    assert forall i :: 0 <= i < |ps| ==> r[i].0 == ps[i].0;
    if k in fs && Truthy(Get(ps, k)) {
      if Lookup(r, k).Some? {
        assert (k, Lookup(r, k).value) in r;
      }
    } else {
      LookupAgree(ps, r, k);
    }
  }

  /** The result holds exactly the input's keys, in the input's order. */
  lemma {:induction false} SanitizedKeepsKeys(data: Value)
    requires Truthy(data)
    ensures Sanitized(data).Obj?
    ensures |Sanitized(data).fields| == |Spread(data)|
    ensures forall i :: 0 <= i < |Spread(data)| ==> Sanitized(data).fields[i].0 == Spread(data)[i].0
  {
  }

  /** Every sensitive field that reads as truthy reads as the marker afterwards;
      every other field, including a sensitive one that is falsy, reads as before. */
  lemma {:induction false} SanitizedFields(data: Value, k: string)
    requires Truthy(data)
    ensures k in SensitiveFields && Truthy(Get(Spread(data), k)) ==>
              Get(Sanitized(data).fields, k) == Str(RedactedText)
    ensures !(k in SensitiveFields && Truthy(Get(Spread(data), k))) ==>
              Get(Sanitized(data).fields, k) == Get(Spread(data), k)
  {
    RedactLookup(Spread(data), SensitiveFields, k);
  }

  /** A falsy input sanitizes to `null`, a truthy one to an object. */
  lemma {:induction false} SanitizedNullIff(data: Value)
    ensures Sanitized(data) == Null <==> !Truthy(data)
  {
  }

  /** Sanitizing a sanitized value changes nothing. */
  lemma {:induction false} SanitizeIdempotent(data: Value)
    ensures Sanitized(Sanitized(data)) == Sanitized(data)
  {
    if Truthy(data) {
      var ps := Spread(data);
      var rs := RedactOnly(ps, SensitiveFields);
      var rrs := RedactOnly(rs, SensitiveFields);
      forall i | 0 <= i < |rs| ensures rrs[i] == rs[i] {
        var k := ps[i].0;
        RedactLookup(ps, SensitiveFields, k);
      }
      assert rrs == rs;
    }
  }

  /** A request, as far as the audit record reads it. */
  datatype AuditRequest = AuditRequest(
    userId: Option<string>,            // req.user?.id
    httpMethod: string,
    originalUrl: string,
    baseUrl: string,
    params: seq<(string, string)>,
    ip: Option<string>,
    remoteAddress: Option<string>,
    userAgent: Option<string>,
    body: Value)

  datatype AuditData = AuditData(
    userId: Option<string>,
    action: string,
    resourceType: string,
    resourceId: Option<string>,
    ipAddress: Option<string>,
    userAgent: Option<string>,
    status: string,
    durationMs: int,
    requestBody: Value,
    responseStatus: int)

  /** `a || b` on optional strings. */
  function OrElse(a: Option<string>, b: Option<string>): (r: Option<string>)
    ensures Filled(a) ==> r == a
    ensures !Filled(a) ==> r == b
  {
    if Filled(a) then a else b
  }

  /** `'FAILURE'` for an error status, `'SUCCESS'` otherwise. */
  function StatusOf(statusCode: int): (s: string)
    ensures s == "FAILURE" <==> statusCode >= 400
    ensures s == "SUCCESS" <==> statusCode < 400
  {
    if statusCode >= 400 then "FAILURE" else "SUCCESS"
  }

  /** The resource type: the last '/' segment of the base URL, or `'unknown'`
      when that segment is empty (an empty URL, or one ending in '/'). */
  function ResourceType(baseUrl: string): (t: string)
    ensures baseUrl == [] || baseUrl[|baseUrl| - 1] == '/' ==> t == "unknown"
    ensures baseUrl != [] && baseUrl[|baseUrl| - 1] != '/' ==>
              0 < |t| <= |baseUrl| && baseUrl[|baseUrl| - |t|..] == t && '/' !in t &&
              (|t| == |baseUrl| || baseUrl[|baseUrl| - |t| - 1] == '/')
  {
    var last := LastSegment(baseUrl);
    if last == "" then "unknown" else last
  }

  /** The record built when the response is sent at time `now`, for a request
      that arrived at `startTime` and is answered with `statusCode`. */
  function AuditRecord(req: AuditRequest, statusCode: int, startTime: int, now: int): (a: AuditData)
    ensures a.status == "FAILURE" <==> statusCode >= 400
    ensures a.userId.Some? <==> Filled(req.userId)
    ensures a.userId.Some? ==> a.userId == req.userId
    ensures a.resourceId.Some? <==> Filled(Lookup(req.params, "id"))
    ensures a.resourceId.Some? ==> a.resourceId == Lookup(req.params, "id")
    ensures a.action == req.httpMethod + " " + req.originalUrl
    ensures a.requestBody == Sanitized(req.body)
    ensures a.responseStatus == statusCode && a.durationMs == now - startTime
    ensures a.resourceType == ResourceType(req.baseUrl)
    ensures a.ipAddress == OrElse(req.ip, req.remoteAddress) && a.userAgent == req.userAgent
  {
    AuditData(
      if Filled(req.userId) then req.userId else None,
      req.httpMethod + " " + req.originalUrl,
      ResourceType(req.baseUrl),
      if Filled(Lookup(req.params, "id")) then Lookup(req.params, "id") else None,
      OrElse(req.ip, req.remoteAddress),
      req.userAgent,
      StatusOf(statusCode),
      now - startTime,
      Sanitized(req.body),
      statusCode)
  }

  /** A request body's secrets never reach the record. */
  lemma {:induction false} RecordRedactsSecrets(req: AuditRequest, statusCode: int, startTime: int, now: int, k: string)
    requires Truthy(req.body) && k in SensitiveFields && Truthy(Get(Spread(req.body), k))
    ensures AuditRecord(req, statusCode, startTime, now).requestBody.Obj?
    ensures Get(AuditRecord(req, statusCode, startTime, now).requestBody.fields, k) == Str(RedactedText)
  {
    SanitizedFields(req.body, k);
  }

  /** `createAuditLog`: the insertion is not implemented, so it reports success. */
  function CreateAuditLog(auditData: AuditData): (saved: bool)
    ensures saved
  {
    true
  }
}

=== FILE: auth_context.dfy ===
/** The client-side session of frontend/src/contexts/AuthContext.js: the role
    and permission tests the pages use, and the session state (the stored
    token, the `Authorization` header of the API client, the current user and
    the loading flag) that `checkAuth`, `login` and `logout` update.
    Token decoding, the login request and the clock are parameters. */
module AuthContext {
  import opened Values
  import Rbac

  /** The user object the client holds: the decoded token, or the `user` of
      the login response. */
  datatype ClientUser = ClientUser(
    roles: Option<seq<Rbac.RoleRef>>,
    permissions: Option<seq<Rbac.RoleRef>>,
    exp: Option<int>)

  /** `typeof e === 'string' && e === name || (e.name && e.name === name)`. */
  predicate NamedAs(e: Rbac.RoleRef, name: string) {
    match e
    case RoleName(n) => n == name
    case RoleObject(n) => n.Some? && n.value != "" && n.value == name
  }

  /** `entries.some(e => NamedAs(e, name))`. */
  function AnyNamed(entries: seq<Rbac.RoleRef>, name: string): (b: bool)
    ensures b <==> exists e | e in entries :: NamedAs(e, name)
  {
    entries != [] && (NamedAs(entries[0], name) || AnyNamed(entries[1..], name))
  }

  /** `hasRole(roleName)`. */
  function HasRole(user: Option<ClientUser>, roleName: string): (b: bool)
    ensures user.None? || user.value.roles.None? ==> !b
    ensures user.Some? && user.value.roles.Some? ==>
              (b <==> exists e | e in user.value.roles.value :: NamedAs(e, roleName))
  {
    user.Some? && user.value.roles.Some? && AnyNamed(user.value.roles.value, roleName)
  }

  /** `hasPermission(permission)`: the same test over `user.permissions`. */
  function HasPermission(user: Option<ClientUser>, permission: string): (b: bool)
    ensures user.None? || user.value.permissions.None? ==> !b
    ensures user.Some? && user.value.permissions.Some? ==>
              (b <==> exists e | e in user.value.permissions.value :: NamedAs(e, permission))
  {
    user.Some? && user.value.permissions.Some? && AnyNamed(user.value.permissions.value, permission)
  }

  /** `isSystemAdmin()`. */
  function IsSystemAdmin(user: Option<ClientUser>): (b: bool)
    ensures b <==> HasRole(user, Rbac.SystemAdmin)
  {
    HasRole(user, Rbac.SystemAdmin)
  }

  /** For a non-empty role name the client's test and the server's
      `requireRole` test agree on every list of roles. */
  lemma {:induction false} ClientAgreesWithServer(roles: seq<Rbac.RoleRef>, roleName: string)
    requires roleName != ""
    ensures AnyNamed(roles, roleName) <==> Rbac.SomeRoleMatches(roles, roleName)
  {
    if AnyNamed(roles, roleName) {
      var e :| e in roles && NamedAs(e, roleName);
      assert Rbac.RoleMatches(e, roleName);
    }
    if Rbac.SomeRoleMatches(roles, roleName) {
      var e :| e in roles && Rbac.RoleMatches(e, roleName);
      assert NamedAs(e, roleName);
    }
  }

  /** For the empty name they differ: a role object named `''` satisfies the
      server's test but not the client's truthiness test. */
  lemma {:induction false} EmptyNameDisagreement()
    ensures !AnyNamed([Rbac.RoleObject(Some(""))], "")
    ensures Rbac.SomeRoleMatches([Rbac.RoleObject(Some(""))], "")
  {
    assert Rbac.RoleMatches(Rbac.RoleObject(Some("")), "");
  }

  /** `decoded.exp * 1000 < Date.now()`: a token without `exp` compares `NaN`
      and is never expired. */
  function Expired(exp: Option<int>, now: int): (b: bool)
    ensures b ==> exp.Some?
    ensures exp.Some? ==> (b <==> exp.value < now / 1000 || (exp.value == now / 1000 && now % 1000 != 0))
  {
    exp.Some? && exp.value * 1000 < now
  }

  /** The answer to the login request: the token and user of a 2xx response,
      or the `message` of the error response, if any. */
  datatype LoginResponse =
    | LoginOk(token: string, userData: ClientUser)
    | LoginError(serverMessage: Option<string>)

  datatype LoginResult = LoginResult(success: bool, message: Option<string>)

  /** The failure message `login` returns. */
  function FailureMessage(serverMessage: Option<string>): (m: string)
    ensures Filled(serverMessage) ==> m == serverMessage.value
    ensures !Filled(serverMessage) ==> m == "Login failed"
  {
    if Filled(serverMessage) then serverMessage.value else "Login failed"
  }

  class AuthSession {
    /** `localStorage.getItem('token')`. */
    var storedToken: Option<string>
    /** `api.defaults.headers.common['Authorization']`. */
    var authHeader: Option<string>
    var user: Option<ClientUser>
    var loading: bool
    /** The last page `navigate` was called with. */
    var location: Option<string>

    /** A fresh provider: no user, loading, and whatever token the browser kept. */
    constructor (persisted: Option<string>)
      ensures storedToken == persisted && authHeader.None? && user.None? && loading && location.None?
    {
      storedToken := persisted;
      authHeader := None;
      user := None;
      loading := true;
      location := None;
    }

    /** `logout`. */
    method Logout()
      modifies this
      ensures storedToken.None? && authHeader.None? && user.None? && location == Some("/login")
      ensures loading == old(loading)
    {
      storedToken := None;
      authHeader := None;
      user := None;
      location := Some("/login");
    }

    /** `checkAuth`: `decode` is `jwtDecode`, `None` where it throws. */
    method CheckAuth(now: int, decode: string -> Option<ClientUser>)
      modifies this
      ensures !loading
      ensures !Filled(old(storedToken)) ==>
                storedToken == old(storedToken) && authHeader == old(authHeader) &&
                user == old(user) && location == old(location)
      ensures Filled(old(storedToken)) ==>
                var d := decode(old(storedToken).value);
                if d.None? || Expired(d.value.exp, now) then
                  storedToken.None? && authHeader.None? && user.None? && location == Some("/login")
                else
                  storedToken == old(storedToken) && user == d &&
                  authHeader == Some("Bearer " + old(storedToken).value) && location == old(location)
    {
      if Filled(storedToken) {
        var token := storedToken.value;
        var decoded := decode(token);
        if decoded.None? {
          Logout();
        } else if Expired(decoded.value.exp, now) {
          Logout();
        } else {
          user := decoded;
          authHeader := Some("Bearer " + token);
        }
      }
      loading := false;
    }

    /** `login`: `response` is the outcome of the login request. */
    method Login(response: LoginResponse) returns (r: LoginResult)
      modifies this
      ensures loading == old(loading)
      ensures response.LoginOk? ==>
                r == LoginResult(true, None) && storedToken == Some(response.token) &&
                authHeader == Some("Bearer " + response.token) && user == Some(response.userData) &&
                location == Some("/dashboard")
      ensures response.LoginError? ==>
                r == LoginResult(false, Some(FailureMessage(response.serverMessage))) &&
                storedToken == old(storedToken) && authHeader == old(authHeader) &&
                user == old(user) && location == old(location)
    {
      match response
      case LoginOk(token, userData) =>
        storedToken := Some(token);
        authHeader := Some("Bearer " + token);
        user := Some(userData);
        location := Some("/dashboard");
        r := LoginResult(true, None);
      case LoginError(serverMessage) =>
        r := LoginResult(false, Some(FailureMessage(serverMessage)));
    }
  }
}

=== FILE: auth_controller.dfy ===
/** The login and token-refresh controllers of
    backend/src/controllers/authController.js.
    A user row is an `Account` object whose lockout columns a login attempt
    updates in place. The SQL lookup, bcrypt and JWT signing are outside the
    model: the row found, whether a query throws, the outcome of the password
    comparison and the decoded refresh token are parameters, and a signed
    token is modelled by the claims it carries. */
module AuthController {
  import opened Values

  /** Failed attempts that lock the account. */
  const MaxAttempts: nat := 5
  /** How long a lock lasts, in milliseconds (30 minutes). */
  const LockDurationMs: int := 30 * 60 * 1000

  const InvalidCredentials := "Invalid username or password"
  /** The answer of `login`'s catch block. */
  const LoginError := "An error occurred during login"

  /** The lockout columns of a `users` row. `failed_login_attempts` may be SQL NULL. */
  datatype LockState = LockState(
    isActive: bool,
    lockedUntil: Option<int>,
    failedLoginAttempts: Option<nat>,
    lastLogin: Option<int>)

  /** What a login attempt on an existing row decides. */
  datatype Outcome =
    | Deactivated
    | LockedOut
    | CompareFailed      // bcrypt.compare threw
    | TooManyAttempts    // wrong password that reached the threshold
    | WrongPassword
    | Accepted

  datatype Transition = Transition(next: LockState, outcome: Outcome)

  /** The payload of the access token. */
  datatype Claims = Claims(id: string, username: string, email: string, roles: seq<string>)

  /** The `user` object of a successful login response. */
  datatype Profile = Profile(
    id: string, username: string, email: string,
    firstName: Option<string>, lastName: Option<string>, roles: seq<string>)

  datatype LoginReply =
    | Answer(status: int, message: string)
    /** 200 'Login successful' with the access token's claims, the refresh
        token's subject id and the user profile. */
    | LoggedIn(token: Claims, refreshSubject: string, user: Profile)

  /** `(user.failed_login_attempts || 0)`. */
  function Attempts(s: LockState): nat {
    if s.failedLoginAttempts.Some? then s.failedLoginAttempts.value else 0
  }

  /** `user.locked_until && new Date(user.locked_until) > new Date()`. */
  predicate Locked(s: LockState, now: int) {
    s.lockedUntil.Some? && s.lockedUntil.value > now
  }

  /** The decision and the new lockout columns of one attempt at time `now`
      on an existing row, given the outcome of comparing the password. */
  function LoginTransition(s: LockState, now: int, check: Attempt<bool>): Transition {
    if !s.isActive then Transition(s, Deactivated)
    else if Locked(s, now) then Transition(s, LockedOut)
    else if check.Threw? then Transition(s, CompareFailed)
    else PasswordTransition(s, now, check.value)
  }

  /** The part of the transition after the password was compared: a mismatch
      counts one more failure and locks the row at the threshold, a match
      clears the counter and the lock and records the login. */
  function PasswordTransition(s: LockState, now: int, matches: bool): Transition {
    if !matches then
      var failed := Attempts(s) + 1;
      if failed >= MaxAttempts then
        Transition(s.(failedLoginAttempts := Some(failed), lockedUntil := Some(now + LockDurationMs)),
                   TooManyAttempts)
      else
        Transition(s.(failedLoginAttempts := Some(failed)), WrongPassword)
    else
      Transition(s.(failedLoginAttempts := Some(0), lockedUntil := None, lastLogin := Some(now)), Accepted)
  }

  /** The response to every decision but `Accepted`. */
  function Refusal(o: Outcome): (r: LoginReply)
    requires !o.Accepted?
    ensures r.Answer?
    ensures r.status == 401 <==> o.WrongPassword?
    ensures o.WrongPassword? ==> r.message == InvalidCredentials
    ensures r.status == 403 <==> o in {Deactivated, LockedOut, TooManyAttempts}
    ensures o.Deactivated? ==> r == Answer(403, "Account is deactivated")
    ensures o.LockedOut? ==> r == Answer(403, "Account is temporarily locked. Please try again later.")
    ensures o.TooManyAttempts? ==> r == Answer(403, "Too many failed login attempts. Account locked for 30 minutes.")
    ensures o.CompareFailed? ==> r == Answer(500, LoginError)
  {
    match o
    case Deactivated => Answer(403, "Account is deactivated")
    case LockedOut => Answer(403, "Account is temporarily locked. Please try again later.")
    case CompareFailed => Answer(500, LoginError)
    case TooManyAttempts => Answer(403, "Too many failed login attempts. Account locked for 30 minutes.")
    case WrongPassword => Answer(401, InvalidCredentials)
  }

  /** The decisions after which `login` writes the lockout columns. */
  predicate Writes(o: Outcome) {
    o.TooManyAttempts? || o.WrongPassword? || o.Accepted?
  }

  /** `roles.filter(role => role !== null)`. */
  function WithoutNulls(roles: seq<Option<string>>): (r: seq<string>)
    ensures |r| <= |roles|
    ensures forall x :: x in r <==> Some(x) in roles
  {
    if roles == [] then []
    else if roles[0].None? then WithoutNulls(roles[1..])
    else [roles[0].value] + WithoutNulls(roles[1..])
  }

  /** `user.roles ? user.roles.filter(role => role !== null) : []`: the
      aggregated role names, where a user without roles aggregates to `[null]`. */
  function RoleNames(roles: Option<seq<Option<string>>>): seq<string> {
    if roles.Some? then WithoutNulls(roles.value) else []
  }

  /** A `users` row with its aggregated role names. */
  class Account {
    const id: string
    const username: string
    const email: string
    const firstName: Option<string>
    const lastName: Option<string>
    const roles: Option<seq<Option<string>>>
    var isActive: bool
    var lockedUntil: Option<int>
    var failedLoginAttempts: Option<nat>
    var lastLogin: Option<int>

    function State(): LockState
      reads this
    {
      LockState(isActive, lockedUntil, failedLoginAttempts, lastLogin)
    }

    constructor (id: string, username: string, email: string,
                 firstName: Option<string>, lastName: Option<string>,
                 roles: Option<seq<Option<string>>>, lock: LockState)
      ensures this.id == id && this.username == username && this.email == email
      ensures this.firstName == firstName && this.lastName == lastName && this.roles == roles
      ensures State() == lock
    {
      this.id, this.username, this.email := id, username, email;
      this.firstName, this.lastName, this.roles := firstName, lastName, roles;
      isActive, lockedUntil := lock.isActive, lock.lockedUntil;
      failedLoginAttempts, lastLogin := lock.failedLoginAttempts, lock.lastLogin;
    }

    /** The part of `login` after the row is found: status checks, password
        check and the update of the lockout columns. `writeFault` says whether
        that UPDATE throws; the catch block then answers 500 and the columns
        keep their old values. */
    method Attempt(now: int, check: Attempt<bool>, writeFault: bool) returns (r: LoginReply)
      modifies this
      ensures var t := LoginTransition(old(State()), now, check);
              if writeFault && Writes(t.outcome) then
                State() == old(State()) && r == Answer(500, LoginError)
              else
                State() == t.next &&
                if t.outcome.Accepted? then
                  r == LoggedIn(Claims(id, username, email, RoleNames(roles)), id,
                                Profile(id, username, email, firstName, lastName, RoleNames(roles)))
                else r == Refusal(t.outcome)
    {
      if !isActive {
        return Answer(403, "Account is deactivated");
      }
      if lockedUntil.Some? && lockedUntil.value > now {
        return Answer(403, "Account is temporarily locked. Please try again later.");
      }
      if check.Threw? {
        return Answer(500, LoginError);
      }
      r := CheckPassword(now, check.value, writeFault);
    }

    /** `login` once the password was compared: the update of the lockout
        columns and the reply; every outcome here writes the columns. */
    method CheckPassword(now: int, matches: bool, writeFault: bool) returns (r: LoginReply)
      modifies this
      ensures var t := PasswordTransition(old(State()), now, matches);
              if writeFault then
                State() == old(State()) && r == Answer(500, LoginError)
              else
                State() == t.next &&
                if t.outcome.Accepted? then
                  r == LoggedIn(Claims(id, username, email, RoleNames(roles)), id,
                                Profile(id, username, email, firstName, lastName, RoleNames(roles)))
                else r == Refusal(t.outcome)
    {
      if writeFault {
        return Answer(500, LoginError);
      }
      if !matches {
        var failedAttempts := Attempts(State()) + 1;
        if failedAttempts >= MaxAttempts {
          failedLoginAttempts := Some(failedAttempts);
          lockedUntil := Some(now + LockDurationMs);
          return Answer(403, "Too many failed login attempts. Account locked for 30 minutes.");
        } else {
          failedLoginAttempts := Some(failedAttempts);
        }
        return Answer(401, InvalidCredentials);
      }
      failedLoginAttempts := Some(0);
      lockedUntil := None;
      lastLogin := Some(now);
      var names := RoleNames(roles);
      r := LoggedIn(Claims(id, username, email, names), id,
                    Profile(id, username, email, firstName, lastName, names));
    }
  }

  /** `login`: `lookupFault` says whether the SELECT throws, `found` is the row
      it returns otherwise, and `writeFault` whether the UPDATE of the lockout
      columns throws. */
  method Login(username: Value, password: Value, lookupFault: bool, found: Account?,
               now: int, check: Attempt<bool>, writeFault: bool)
    returns (r: LoginReply)
    modifies found
    ensures !Truthy(username) || !Truthy(password) ==>
              r == Answer(400, "Username and password are required") &&
              (found != null ==> found.State() == old(found.State()))
    ensures Truthy(username) && Truthy(password) && lookupFault ==>
              r == Answer(500, LoginError) && (found != null ==> found.State() == old(found.State()))
    ensures Truthy(username) && Truthy(password) && !lookupFault && found == null ==>
              r == Answer(401, InvalidCredentials)
    ensures Truthy(username) && Truthy(password) && !lookupFault && found != null ==>
              var t := LoginTransition(old(found.State()), now, check);
              if writeFault && Writes(t.outcome) then
                found.State() == old(found.State()) && r == Answer(500, LoginError)
              else
                found.State() == t.next &&
                if t.outcome.Accepted? then
                  var names := RoleNames(found.roles);
                  r == LoggedIn(Claims(found.id, found.username, found.email, names), found.id,
                                Profile(found.id, found.username, found.email, found.firstName, found.lastName, names))
                else r == Refusal(t.outcome)
    ensures r.LoggedIn? ==> r.token.roles == r.user.roles
  {
    if !Truthy(username) || !Truthy(password) {
      return Answer(400, "Username and password are required");
    }
    if lookupFault {
      return Answer(500, LoginError);
    }
    if found == null {
      return Answer(401, InvalidCredentials);
    }
    r := found.Attempt(now, check, writeFault);
  }

  /** The row of a refresh-token lookup. */
  datatype UserRow = UserRow(id: string, username: string, email: string, isActive: bool,
                             roles: Option<seq<Option<string>>>)

  /** The result of `jwt.verify` on the refresh token: its `id` claim, or the
      `name` of the error thrown. */
  datatype RefreshDecode = DecodedId(id: Option<string>) | VerifyError(errorName: string)

  datatype RefreshReply = Refreshed(token: Claims) | RefreshRefused(status: int, message: string)

  /** `refreshToken`: `verify` is `jwt.verify` with the refresh secret and
      `lookup` the query of the row by id, which may throw. */
  function RefreshToken(refreshToken: Value, verify: Value -> RefreshDecode,
                        lookup: Option<string> -> Attempt<Option<UserRow>>): (r: RefreshReply)
    ensures !Truthy(refreshToken) ==> r == RefreshRefused(400, "Refresh token is required")
    ensures Truthy(refreshToken) && verify(refreshToken).VerifyError? ==>
              r == RefreshCatch(verify(refreshToken).errorName)
    ensures Truthy(refreshToken) && verify(refreshToken).DecodedId? &&
            lookup(verify(refreshToken).id).Threw? ==>
              r == RefreshCatch(lookup(verify(refreshToken).id).name)
    ensures Truthy(refreshToken) && verify(refreshToken).DecodedId? &&
            lookup(verify(refreshToken).id).Returned? ==>
              var row := lookup(verify(refreshToken).id).value;
              (r.Refreshed? <==> row.Some? && row.value.isActive) &&
              (!r.Refreshed? ==> r == RefreshRefused(401, "Invalid refresh token"))
    ensures r.Refreshed? ==>
              verify(refreshToken).DecodedId? &&
              lookup(verify(refreshToken).id).Returned? &&
              var row := lookup(verify(refreshToken).id).value;
              row.Some? && row.value.isActive &&
              r.token == Claims(row.value.id, row.value.username, row.value.email, RoleNames(row.value.roles))
  {
    if !Truthy(refreshToken) then RefreshRefused(400, "Refresh token is required")
    else
      match verify(refreshToken)
      case VerifyError(name) => RefreshCatch(name)
      case DecodedId(userId) =>
        match lookup(userId)
        case Threw(name) => RefreshCatch(name)
        case Returned(row) =>
          if row.None? || !row.value.isActive then RefreshRefused(401, "Invalid refresh token")
          else Refreshed(Claims(row.value.id, row.value.username, row.value.email, RoleNames(row.value.roles)))
  }

  /** The catch block of `refreshToken`, for an error thrown by the token check
      or by the query: 401 for the two JWT errors, 500 for anything else. */
  function RefreshCatch(errorName: string): (r: RefreshReply)
    ensures r.RefreshRefused?
    ensures r.status == 401 <==> errorName in {"JsonWebTokenError", "TokenExpiredError"}
    ensures errorName in {"JsonWebTokenError", "TokenExpiredError"} ==>
              r == RefreshRefused(401, "Invalid or expired refresh token")
    ensures r.status != 401 ==> r == RefreshRefused(500, "An error occurred while refreshing token")
  {
    if errorName == "JsonWebTokenError" || errorName == "TokenExpiredError" then
      RefreshRefused(401, "Invalid or expired refresh token")
    else RefreshRefused(500, "An error occurred while refreshing token")
  }

  // ---- Properties of the lockout state machine ----

  /** The checks run in the order: deactivated, locked, password. A deactivated
      or locked account keeps its columns whatever the password. */
  lemma CheckOrder(s: LockState, now: int, check: Attempt<bool>)
    ensures !s.isActive ==> LoginTransition(s, now, check) == Transition(s, Deactivated)
    ensures s.isActive && Locked(s, now) ==> LoginTransition(s, now, check) == Transition(s, LockedOut)
    ensures LoginTransition(s, now, check).outcome.Accepted? ==>
              s.isActive && !Locked(s, now) && check == Returned(true)
  {
  }

  /** A wrong password raises the counter by one (NULL counting as 0) and locks
      the account for 30 minutes exactly when the counter reaches 5. */
  lemma WrongPasswordCounts(s: LockState, now: int)
    requires s.isActive && !Locked(s, now)
    ensures var t := LoginTransition(s, now, Returned(false));
            t.next.failedLoginAttempts == Some(Attempts(s) + 1) &&
            t.next.isActive && t.next.lastLogin == s.lastLogin &&
            (t.outcome == TooManyAttempts <==> Attempts(s) + 1 >= MaxAttempts) &&
            (t.outcome == WrongPassword <==> Attempts(s) + 1 < MaxAttempts) &&
            (if Attempts(s) + 1 >= MaxAttempts then t.next.lockedUntil == Some(now + LockDurationMs)
             else t.next.lockedUntil == s.lockedUntil)
  {
  }

  /** A successful login clears the counter and the lock. */
  lemma SuccessResets(s: LockState, now: int)
    requires s.isActive && !Locked(s, now)
    ensures LoginTransition(s, now, Returned(true)) ==
              Transition(LockState(true, None, Some(0), Some(now)), Accepted)
  {
  }

  /** The lock set by the fifth failure holds for exactly 30 minutes. */
  lemma LockLastsThirtyMinutes(s: LockState, now: int, later: int)
    requires s.isActive && !Locked(s, now) && Attempts(s) + 1 >= MaxAttempts
    ensures Locked(LoginTransition(s, now, Returned(false)).next, later) <==> later < now + LockDurationMs
  {
  }

  /** Only a success resets the counter: once a lock has expired, the next
      wrong password locks the account again at once. */
  lemma RelockAfterExpiry(s: LockState, now: int)
    requires s.isActive && s.lockedUntil.Some? && s.lockedUntil.value <= now
    requires Attempts(s) >= MaxAttempts
    ensures LoginTransition(s, now, Returned(false)) ==
              Transition(s.(failedLoginAttempts := Some(Attempts(s) + 1),
                            lockedUntil := Some(now + LockDurationMs)), TooManyAttempts)
  {
  }

  /** `k` consecutive wrong passwords at time `now`. */
  function WrongPasswords(s: LockState, now: int, k: nat): LockState
    decreases k
  {
    if k == 0 then s else WrongPasswords(LoginTransition(s, now, Returned(false)).next, now, k - 1)
  }

  /** Below the threshold, wrong passwords only count. */
  lemma {:induction false} WrongPasswordsBelowThreshold(s: LockState, now: int, k: nat)
    requires s.isActive && !Locked(s, now) && Attempts(s) + k < MaxAttempts
    ensures WrongPasswords(s, now, k) == s.(failedLoginAttempts := if k == 0 then s.failedLoginAttempts else Some(Attempts(s) + k))
    decreases k
  {
    if k > 0 {
      var s1 := LoginTransition(s, now, Returned(false)).next;
      assert s1 == s.(failedLoginAttempts := Some(Attempts(s) + 1));
      WrongPasswordsBelowThreshold(s1, now, k - 1);
    }
  }

  /** From a clean, unlocked account, the fifth consecutive wrong password
      locks it, and from then on even the right password is refused. */
  lemma {:induction false} FifthFailureLocks(s: LockState, now: int, check: Attempt<bool>)
    requires s.isActive && !Locked(s, now) && Attempts(s) == 0
    ensures var s4 := WrongPasswords(s, now, MaxAttempts - 1);
            LoginTransition(s4, now, Returned(false)).outcome == TooManyAttempts &&
            LoginTransition(WrongPasswords(s, now, MaxAttempts), now, check).outcome == LockedOut
  {
    WrongPasswordsBelowThreshold(s, now, MaxAttempts - 1);
    var s4 := WrongPasswords(s, now, MaxAttempts - 1);
    assert Attempts(s4) == 4;
    WrongPasswordsSplit(s, now, MaxAttempts - 1);
  }

  lemma {:induction false} WrongPasswordsSplit(s: LockState, now: int, k: nat)
    ensures WrongPasswords(s, now, k + 1) ==
              LoginTransition(WrongPasswords(s, now, k), now, Returned(false)).next
    decreases k
  {
    if k > 0 {
      WrongPasswordsSplit(LoginTransition(s, now, Returned(false)).next, now, k - 1);
    }
  }

  /** Filtering distributes over concatenation, so the role names keep the
      order of the aggregation. */
  lemma {:induction false} WithoutNullsAppend(a: seq<Option<string>>, b: seq<Option<string>>)
    ensures WithoutNulls(a + b) == WithoutNulls(a) + WithoutNulls(b)
  {
    if a == [] {
      assert a + b == b;
    } else {
      assert (a + b)[1..] == a[1..] + b;
      WithoutNullsAppend(a[1..], b);
    }
  }

  /** A user without any role aggregates to `[null]` and logs in with no roles. */
  lemma NoRoleUserHasEmptyRoles()
    ensures RoleNames(Some([None])) == []
  {
  }
}

=== FILE: auth_middleware.dfy ===
/** The bearer-token middleware of backend/src/middleware/auth.js:
    `authenticate` answers the request or builds `req.user`; `optionalAuth`
    builds `req.user` when it can and always passes the request on.
    `jwt.verify` is outside the model: its result is a parameter. */
module AuthMiddleware {
  import opened Values
  import opened Text
  import Rbac

  /** The result of `jwt.verify(token, secret)`: the decoded claims, or the
      `name` of the error it throws. */
  datatype Verification =
    | Decoded(id: Option<string>, username: Option<string>, email: Option<string>,
              roles: Option<seq<Rbac.RoleRef>>)
    | Rejected(errorName: string)

  datatype AuthOutcome =
    | Authenticated(user: Rbac.Principal)
    | Refused(status: int, message: string)

  const BearerPrefix := "Bearer "

  /** The token of an `Authorization` header: the header minus its 7-character
      prefix, when it is present and starts with exactly `'Bearer '`. */
  function BearerToken(header: Option<string>): (t: Option<string>)
    ensures t.Some? <==> header.Some? && StartsWith(header.value, BearerPrefix)
    ensures t.Some? ==> header.value == BearerPrefix + t.value
  {
    if header.Some? && StartsWith(header.value, BearerPrefix) then
      var token := header.value[7..];
      assert header.value == header.value[..7] + token;
      Some(token)
    else None
  }

  /** The `req.user` built from decoded claims: id, username and email copied,
      `roles` defaulting to `[]`, and no `permissions` property at all. */
  function PrincipalOf(d: Verification): (u: Rbac.Principal)
    requires d.Decoded?
    ensures u.id == d.id && u.username == d.username && u.email == d.email
    ensures u.roles == Some(if d.roles.Some? then d.roles.value else [])
    ensures u.permissions.None?
  {
    Rbac.Principal(d.id, d.username, d.email, Some(if d.roles.Some? then d.roles.value else []), None)
  }

  /** The answer to a `jwt.verify` error, by the error's `name`. */
  function VerifyFailure(errorName: string): (o: AuthOutcome)
    ensures o.Refused?
    ensures o.status == 401 <==> errorName in {"JsonWebTokenError", "TokenExpiredError"}
    ensures errorName == "JsonWebTokenError" ==> o == Refused(401, "Invalid token")
    ensures errorName == "TokenExpiredError" ==> o == Refused(401, "Token expired")
    ensures o.status != 401 ==> o == Refused(500, "Authentication failed")
  {
    if errorName == "JsonWebTokenError" then Refused(401, "Invalid token")
    else if errorName == "TokenExpiredError" then Refused(401, "Token expired")
    else Refused(500, "Authentication failed")
  }

  /** `authenticate`. */
  function Authenticate(header: Option<string>, verify: string -> Verification): (o: AuthOutcome)
    ensures BearerToken(header).None? ==> o == Refused(401, "No token provided")
    ensures o.Authenticated? <==>
              BearerToken(header).Some? && verify(BearerToken(header).value).Decoded?
    ensures o.Authenticated? ==> o.user == PrincipalOf(verify(BearerToken(header).value))
  {
    match BearerToken(header)
    case None => Refused(401, "No token provided")
    case Some(token) =>
      var d := verify(token);
      if d.Decoded? then Authenticated(PrincipalOf(d)) else VerifyFailure(d.errorName)
  }

  /** `optionalAuth`: the `req.user` the next handler sees, given the one the
      request arrived with; the request is passed on in every case. */
  function OptionalAuth(header: Option<string>, verify: string -> Verification,
                        current: Option<Rbac.Principal>): (user: Option<Rbac.Principal>)
    ensures BearerToken(header).None? ==> user == current
  {
    match BearerToken(header)
    case None => current
    case Some(token) =>
      var d := verify(token);
      if d.Decoded? then Some(PrincipalOf(d)) else current
  }

  /** Stripping the prefix inverts adding it. */
  lemma {:induction false} BearerTokenRoundTrip(token: string)
    ensures BearerToken(Some(BearerPrefix + token)) == Some(token)
  {
    var h := BearerPrefix + token;
    assert h[..7] == BearerPrefix;
    assert h[7..] == token;
  }

  /** A header that does not start with exactly `'Bearer '` (another case,
      no space, or a different scheme) is refused before any verification. */
  lemma {:induction false} LowercaseBearerRefused(token: string, verify: string -> Verification)
    ensures Authenticate(Some("bearer " + token), verify) == Refused(401, "No token provided")
  {
    var h := "bearer " + token;
    assert h[0] == 'b';
    assert h[..7][0] == 'b';
  }

  /** `req.user` built by `authenticate` carries no permissions, so every
      `requirePermission` guard behind it answers 403. */
  lemma {:induction false} AuthenticatedUsersLackPermissions(
    header: Option<string>, verify: string -> Verification, required: seq<string>)
    requires Authenticate(header, verify).Authenticated?
    ensures Rbac.RequirePermission(required, Some(Authenticate(header, verify).user))
            == Rbac.Deny(403, "Insufficient permissions", None)
  {
    var u := Authenticate(header, verify).user;
    assert Rbac.PermissionsOf(u) == [];
  }

  /** `optionalAuth` sets `req.user` exactly when `authenticate` would accept the
      request, and to the same principal; otherwise `req.user` is untouched. */
  lemma {:induction false} OptionalAuthAgreesWithAuthenticate(
    header: Option<string>, verify: string -> Verification, current: Option<Rbac.Principal>)
    ensures Authenticate(header, verify).Authenticated? ==>
              OptionalAuth(header, verify, current) == Some(Authenticate(header, verify).user)
    ensures !Authenticate(header, verify).Authenticated? ==>
              OptionalAuth(header, verify, current) == current
  {
  }
}

=== FILE: form_engine.dfy ===
/** The dynamic form validator of backend/src/services/formEngine.js:
    `buildJoiSchema` turns the field definitions of a form template into one
    schema entry per field name, and `validateFormData` checks submitted data
    against that schema without stopping at the first error and drops the keys
    the schema does not know. The schema library's checks are modelled for
    the rules the fields use; regular expressions, e-mail syntax and dates are
    decided by the oracle `Lib`. */
module FormEngine {
  import opened Values

  /** `field.validation_rules`, each rule absent when the field defines none. */
  datatype Rules = Rules(
    minLength: Option<nat>,
    maxLength: Option<nat>,
    pattern: Option<string>,
    min: Option<int>,
    max: Option<int>,
    minDate: Option<string>,
    maxDate: Option<string>,
    options: Option<seq<string>>)

  const NoRules := Rules(None, None, None, None, None, None, None, None)

  /** A field definition of a form template. */
  datatype Field = Field(name: string, fieldType: string, isRequired: Value, rules: Rules)

  datatype StringFormat = Plain | Email

  /** The check a field's value must pass, apart from its presence. */
  datatype Rule =
    | StringRule(minLength: Option<nat>, maxLength: Option<nat>, pattern: Option<string>, format: StringFormat)
    | NumberRule(min: Option<int>, max: Option<int>)
    | DateRule(minDate: Option<string>, maxDate: Option<string>)
    | OneOf(options: seq<string>)
    | BooleanRule
    | AnyRule

  /** A field's schema: its rule and whether it is required. */
  datatype FieldSchema = FieldSchema(rule: Rule, required: bool)

  /** A positive length limit; a missing limit or 0 is falsy and not applied. */
  function PositiveLimit(limit: Option<nat>): (r: Option<nat>)
    ensures r.Some? <==> limit.Some? && limit.value > 0
    ensures r.Some? ==> r == limit
  {
    if limit.Some? && limit.value > 0 then limit else None
  }

  /** A non-empty text rule; a missing or empty one is falsy and not applied. */
  function NonEmpty(text: Option<string>): (r: Option<string>)
    ensures r.Some? <==> text.Some? && text.value != ""
    ensures r.Some? ==> r == text
  {
    if text.Some? && text.value != "" then text else None
  }

  /** The `switch (field.field_type)` of `buildJoiSchema`. */
  function RuleFor(fieldType: string, rules: Rules): Rule {
    if fieldType == "text" || fieldType == "textarea" then
      StringRule(PositiveLimit(rules.minLength), PositiveLimit(rules.maxLength),
                 if fieldType == "text" then NonEmpty(rules.pattern) else None, Plain)
    else if fieldType == "email" then StringRule(None, None, None, Email)
    else if fieldType == "tel" then StringRule(None, None, NonEmpty(rules.pattern), Plain)
    else if fieldType == "number" then NumberRule(rules.min, rules.max)
    else if fieldType == "date" then
      DateRule(NonEmpty(rules.minDate),
               match NonEmpty(rules.maxDate)
               case Some(d) => Some(if d == "today" then "now" else d)
               case None => None)
    else if fieldType == "select" || fieldType == "radio" then
      // `valid()` with no values sets no allow-list, so the rule stays a plain string
      if rules.options.Some? && rules.options.value != [] then OneOf(rules.options.value)
      else StringRule(None, None, None, Plain)
    else if fieldType == "checkbox" then BooleanRule
    else AnyRule
  }

  /** The schema of one field: its rule, required when `is_required` is truthy. */
  function SchemaFor(field: Field): FieldSchema {
    FieldSchema(RuleFor(field.fieldType, field.rules), Truthy(field.isRequired))
  }

  /** The schema object after the loop has handled `fields`: each field's schema
      assigned under its name, in order. */
  function SchemaOf(fields: seq<Field>): seq<(string, FieldSchema)>
    decreases |fields|
  {
    if fields == [] then []
    else
      var last := fields[|fields| - 1];
      Assign(SchemaOf(fields[..|fields| - 1]), last.name, SchemaFor(last))
  }

  /** `buildJoiSchema` over the given field definitions: a loop assigning
      `schemaObject[field.field_name]`. */
  method BuildSchema(fields: seq<Field>) returns (schema: seq<(string, FieldSchema)>)
    ensures schema == SchemaOf(fields)
    ensures UniqueKeys(schema)
  {
    schema := [];
    var i := 0;
    while i < |fields|
      invariant 0 <= i <= |fields|
      invariant schema == SchemaOf(fields[..i])
      invariant UniqueKeys(schema)
    {
      var field := fields[i];
      assert fields[..i + 1][..i] == fields[..i];
      schema := Assign(schema, field.name, SchemaFor(field));
      i := i + 1;
    }
    assert fields[..i] == fields;
  }

  /** A name no field carries has no entry in the schema. */
  lemma {:induction false} SchemaOfMissing(fields: seq<Field>, k: string)
    requires forall i :: 0 <= i < |fields| ==> fields[i].name != k
    ensures Lookup(SchemaOf(fields), k).None?
    decreases |fields|
  {
    if fields != [] {
      var init := fields[..|fields| - 1];
      assert forall i :: 0 <= i < |init| ==> init[i] == fields[i];
      SchemaOfMissing(init, k);
    }
  }

  /** The entry of a name is the schema of the last field carrying it: a later
      assignment under the same name overwrites an earlier one. */
  lemma {:induction false} SchemaOfLast(fields: seq<Field>, i: nat)
    requires i < |fields|
    requires forall j :: i < j < |fields| ==> fields[j].name != fields[i].name
    ensures Lookup(SchemaOf(fields), fields[i].name) == Some(SchemaFor(fields[i]))
    decreases |fields|
  {
    var init := fields[..|fields| - 1];
    var last := fields[|fields| - 1];
    assert SchemaOf(fields) == Assign(SchemaOf(init), last.name, SchemaFor(last));
    if i < |fields| - 1 {
      assert init[i] == fields[i];
      assert forall j :: i < j < |init| ==> init[j] == fields[j];
      SchemaOfLast(init, i);
      assert last.name != fields[i].name;
    }
  }

  /** A schema error: the key path joined by '.', and the error type. */
  datatype ErrorDetail = ErrorDetail(field: string, errorType: string)

  /** The checks outside the model: regular-expression matching, e-mail
      syntax, and the errors of a date check with its bounds. */
  datatype Lib = Lib(
    matches: (string, string) -> bool,
    isEmail: string -> bool,
    dateErrors: (Value, Option<string>, Option<string>) -> seq<string>)

  /** The error types of a string that is not empty. */
  function StringErrors(s: string, minLength: Option<nat>, maxLength: Option<nat>, pattern: Option<string>,
                        format: StringFormat, lib: Lib): (es: seq<string>)
    ensures es == [] <==>
              (minLength.None? || |s| >= minLength.value) && (maxLength.None? || |s| <= maxLength.value) &&
              (pattern.None? || lib.matches(pattern.value, s)) && (format == Plain || lib.isEmail(s))
  {
    (if minLength.Some? && |s| < minLength.value then ["string.min"] else []) +
    (if maxLength.Some? && |s| > maxLength.value then ["string.max"] else []) +
    (if pattern.Some? && !lib.matches(pattern.value, s) then ["string.pattern.base"] else []) +
    (if format == Email && !lib.isEmail(s) then ["string.email"] else [])
  }

  /** The error types of a present value under a rule. */
  function RuleErrors(rule: Rule, v: Value, lib: Lib): seq<string> {
    match rule
    case StringRule(minLength, maxLength, pattern, format) =>
      if !v.Str? then ["string.base"]
      else if v.s == "" then ["string.empty"]
      else StringErrors(v.s, minLength, maxLength, pattern, format, lib)
    case NumberRule(min, max) =>
      if !v.Num? then ["number.base"]
      else (if min.Some? && v.n < min.value then ["number.min"] else []) +
           (if max.Some? && v.n > max.value then ["number.max"] else [])
    case DateRule(minDate, maxDate) => lib.dateErrors(v, minDate, maxDate)
    case OneOf(options) =>
      // with `abortEarly: false` the string type's own check follows the allow-list's
      if v.Str? && v.s in options then []
      else ["any.only"] + (if !v.Str? then ["string.base"] else if v.s == "" then ["string.empty"] else [])
    case BooleanRule => if v.Bool? then [] else ["boolean.base"]
    case AnyRule => []
  }

  /** The error types of the value `v` read under a field's key (`undefined`
      when the key is missing): presence first, then the rule. */
  function FieldErrors(fs: FieldSchema, v: Value, lib: Lib): (es: seq<string>)
    ensures v.Undefined? ==> es == (if fs.required then ["any.required"] else [])
    ensures !fs.required && (v.Null? || v == Str("")) ==> es == []
  {
    if v.Undefined? then (if fs.required then ["any.required"] else [])
    else if !fs.required && (v.Null? || v == Str("")) then []
    else RuleErrors(fs.rule, v, lib)
  }

  function Details(key: string, types: seq<string>): (ds: seq<ErrorDetail>)
    ensures |ds| == |types|
    ensures forall i :: 0 <= i < |ds| ==> ds[i] == ErrorDetail(key, types[i])
  {
    seq(|types|, i requires 0 <= i < |types| => ErrorDetail(key, types[i]))
  }

  /** Every error of every schema key, in schema order. */
  function AllErrors(schema: seq<(string, FieldSchema)>, data: seq<(string, Value)>, lib: Lib): seq<ErrorDetail> {
    if schema == [] then []
    else
      Details(schema[0].0, FieldErrors(schema[0].1, Get(data, schema[0].0), lib)) +
      AllErrors(schema[1..], data, lib)
  }

  /** No error is reported iff no field has an error (`abortEarly: false`
      checks them all). */
  lemma {:induction false} AllErrorsEmptyIff(schema: seq<(string, FieldSchema)>, data: seq<(string, Value)>, lib: Lib)
    ensures AllErrors(schema, data, lib) == [] <==>
              forall i :: 0 <= i < |schema| ==> FieldErrors(schema[i].1, Get(data, schema[i].0), lib) == []
    decreases |schema|
  {
    if schema != [] {
      AllErrorsEmptyIff(schema[1..], data, lib);
      assert forall i :: 1 <= i < |schema| ==> schema[1..][i - 1] == schema[i];
    }
  }

  /** Every reported error names a key of the schema. */
  lemma {:induction false} AllErrorsNameFields(schema: seq<(string, FieldSchema)>, data: seq<(string, Value)>, lib: Lib,
                                               d: ErrorDetail)
    requires d in AllErrors(schema, data, lib)
    ensures exists i :: 0 <= i < |schema| && schema[i].0 == d.field
    decreases |schema|
  {
    var here := Details(schema[0].0, FieldErrors(schema[0].1, Get(data, schema[0].0), lib));
    if d in here {
      assert schema[0].0 == d.field;
    } else {
      AllErrorsNameFields(schema[1..], data, lib, d);
      var i :| 0 <= i < |schema[1..]| && schema[1..][i].0 == d.field;
      assert schema[i + 1].0 == d.field;
    }
  }

  /** `stripUnknown`: the properties whose key has a schema, in their order. */
  function Known(data: seq<(string, Value)>, schema: seq<(string, FieldSchema)>): (r: seq<(string, Value)>)
    ensures forall p :: p in r <==> p in data && Lookup(schema, p.0).Some?
  {
    if data == [] then []
    else (if Lookup(schema, data[0].0).Some? then [data[0]] else []) + Known(data[1..], schema)
  }

  datatype FormResult = Valid(data: Value) | Invalid(errors: seq<ErrorDetail>)

  /** `validateFormData` against a schema object. */
  function ValidateFormData(schema: seq<(string, FieldSchema)>, formData: Value, lib: Lib): (r: FormResult)
    ensures formData.Undefined? ==> r == Valid(Undefined)
    ensures !formData.Undefined? && !formData.Obj? ==> r == Invalid([ErrorDetail("", "object.base")])
    ensures formData.Obj? ==>
              (r.Valid? <==> forall i :: 0 <= i < |schema| ==>
                               FieldErrors(schema[i].1, Get(formData.fields, schema[i].0), lib) == [])
    ensures formData.Obj? && r.Valid? ==> r.data == Obj(Known(formData.fields, schema))
    ensures formData.Obj? && r.Invalid? ==>
              r.errors != [] && forall d :: d in r.errors ==> Lookup(schema, d.field).Some?
  {
    if formData.Undefined? then Valid(Undefined)
    else if !formData.Obj? then Invalid([ErrorDetail("", "object.base")])
    else
      var errors := AllErrors(schema, formData.fields, lib);
      AllErrorsEmptyIff(schema, formData.fields, lib);
      assert forall d :: d in errors ==> Lookup(schema, d.field).Some? by {
        forall d | d in errors ensures Lookup(schema, d.field).Some? {
          AllErrorsNameFields(schema, formData.fields, lib, d);
          var i :| 0 <= i < |schema| && schema[i].0 == d.field;
        }
      }
      if errors == [] then Valid(Obj(Known(formData.fields, schema))) else Invalid(errors)
  }

  /** A required field that is missing makes the data invalid, with an
      `any.required` error under its name. */
  lemma {:induction false} MissingRequiredField(fields: seq<Field>, formData: seq<(string, Value)>, lib: Lib, i: nat)
    requires i < |fields| && Truthy(fields[i].isRequired)
    requires forall j :: i < j < |fields| ==> fields[j].name != fields[i].name
    requires Lookup(formData, fields[i].name).None?
    ensures ValidateFormData(SchemaOf(fields), Obj(formData), lib).Invalid?
    ensures ErrorDetail(fields[i].name, "any.required") in ValidateFormData(SchemaOf(fields), Obj(formData), lib).errors
  {
    var schema := SchemaOf(fields);
    SchemaOfLast(fields, i);
    var k :| 0 <= k < |schema| && schema[k] == (fields[i].name, SchemaFor(fields[i]));
    assert Get(formData, schema[k].0) == Undefined;
    assert FieldErrors(schema[k].1, Get(formData, schema[k].0), lib) == ["any.required"];
    AllErrorsContain(schema, formData, lib, k, "any.required");
    assert ErrorDetail(fields[i].name, "any.required") in AllErrors(schema, formData, lib);
  }

  /** Each error of each field is reported under the field's key. */
  lemma {:induction false} AllErrorsContain(schema: seq<(string, FieldSchema)>, data: seq<(string, Value)>, lib: Lib,
                                            k: nat, t: string)
    requires k < |schema| && t in FieldErrors(schema[k].1, Get(data, schema[k].0), lib)
    ensures ErrorDetail(schema[k].0, t) in AllErrors(schema, data, lib)
    decreases k
  {
    var here := Details(schema[0].0, FieldErrors(schema[0].1, Get(data, schema[0].0), lib));
    var rest := AllErrors(schema[1..], data, lib);
    assert AllErrors(schema, data, lib) == here + rest;
    if k > 0 {
      assert schema[1..][k - 1] == schema[k];
      AllErrorsContain(schema[1..], data, lib, k - 1, t);
    } else {
      var ts := FieldErrors(schema[0].1, Get(data, schema[0].0), lib);
      var j :| 0 <= j < |ts| && ts[j] == t;
      assert here[j] == ErrorDetail(schema[0].0, t);
    }
  }

  /** An optional field accepts a missing value, `null` and `''`. */
  lemma {:induction false} OptionalAcceptsBlank(fs: FieldSchema, v: Value, lib: Lib)
    requires !fs.required && (v.Undefined? || v.Null? || v == Str(""))
    ensures FieldErrors(fs, v, lib) == []
  {
  }

  /** A required text field refuses `null` and `''`. */
  lemma {:induction false} RequiredTextRefusesBlank(rules: Rules, v: Value, lib: Lib)
    requires v.Null? || v == Str("")
    ensures FieldErrors(FieldSchema(RuleFor("text", rules), true), v, lib) != []
  {
  }

  /** A `minLength` of 0 is not applied: the rule is as if it were absent. */
  lemma {:induction false} ZeroMinLengthIgnored(fieldType: string, rules: Rules)
    requires fieldType == "text" || fieldType == "textarea"
    requires rules.minLength == Some(0)
    ensures RuleFor(fieldType, rules) == RuleFor(fieldType, rules.(minLength := None))
  {
  }

  /** A number bound of 0 is applied: with `min: 0`, -1 is refused and 0 accepted. */
  lemma {:induction false} ZeroNumberBoundHonoured(rules: Rules, lib: Lib)
    requires rules.min == Some(0) && rules.max.None?
    ensures RuleErrors(RuleFor("number", rules), Num(-1), lib) == ["number.min"]
    ensures RuleErrors(RuleFor("number", rules), Num(0), lib) == []
  {
  }

  /** A select or radio field with options accepts exactly the listed strings,
      and reports an unlisted value as "any.only" followed by the string type's
      own error; without options, or with an empty list, any non-empty string. */
  lemma {:induction false} ChoiceFields(fieldType: string, rules: Rules, v: Value, lib: Lib)
    requires fieldType == "select" || fieldType == "radio"
    ensures rules.options.Some? && rules.options.value != [] ==>
              (RuleErrors(RuleFor(fieldType, rules), v, lib) == [] <==> v.Str? && v.s in rules.options.value)
    ensures rules.options.Some? && rules.options.value != [] && !(v.Str? && v.s in rules.options.value) ==>
              RuleErrors(RuleFor(fieldType, rules), v, lib) ==
                if !v.Str? then ["any.only", "string.base"]
                else if v.s == "" then ["any.only", "string.empty"] else ["any.only"]
    ensures rules.options.None? || rules.options.value == [] ==>
              (RuleErrors(RuleFor(fieldType, rules), v, lib) == [] <==> v.Str? && v.s != "")
  {
  }

  /** A checkbox takes exactly the booleans; an unknown field type takes anything. */
  lemma {:induction false} CheckboxAndUnknownTypes(fieldType: string, rules: Rules, v: Value, lib: Lib)
    requires fieldType !in {"text", "textarea", "email", "tel", "number", "date", "select", "radio", "checkbox"}
    ensures RuleErrors(RuleFor("checkbox", rules), v, lib) == [] <==> v.Bool?
    ensures RuleErrors(RuleFor(fieldType, rules), v, lib) == []
  {
  }

  /** `buildJoiSchema` as it runs loads no fields: every object is valid and
      comes back with all its properties stripped. */
  lemma {:induction false} LiveSchemaAcceptsAnyObject(formData: seq<(string, Value)>, lib: Lib)
    ensures ValidateFormData(SchemaOf([]), Obj(formData), lib) == Valid(Obj([]))
  {
    var r := Known(formData, []);
    if r != [] {
      assert r[0] in r;
    }
  }
}

=== FILE: rbac.dfy ===
/** The role, permission and ownership guards of backend/src/middleware/rbac.js.
    Each guard either passes the request on (`next()`) or answers it. */
module Rbac {
  import opened Values

  /** An entry of `req.user.roles`: a bare role name, or a role object whose
      `name` property may be missing. */
  datatype RoleRef = RoleName(name: string) | RoleObject(objName: Option<string>)

  /** `req.user` as the guards read it: every property may be absent. */
  datatype Principal = Principal(
    id: Option<string>,
    username: Option<string>,
    email: Option<string>,
    roles: Option<seq<RoleRef>>,
    permissions: Option<seq<string>>)

  /** What a guard does with the request: call `next()` or answer with a
      status and a JSON body (`requiredRoles` only in `requireRole`'s 403). */
  datatype Verdict =
    | Next
    | Deny(status: int, message: string, requiredRoles: Option<seq<string>>)

  const SystemAdmin := "SYSTEM_ADMIN"

  const Unauthenticated := Deny(401, "Authentication required", None)

  /** `userRole.name === requiredRole || userRole === requiredRole`: a bare
      name is compared as a string (a string has no `name`), an object through
      its `name` (an object is never `===` a string). */
  predicate RoleMatches(userRole: RoleRef, required: string) {
    match userRole
    case RoleName(n) => n == required
    case RoleObject(n) => n == Some(required)
  }

  /** `req.user.roles || []`. */
  function RolesOf(u: Principal): seq<RoleRef> {
    if u.roles.Some? then u.roles.value else []
  }

  /** `req.user.permissions || []`. */
  function PermissionsOf(u: Principal): seq<string> {
    if u.permissions.Some? then u.permissions.value else []
  }

  /** `userRoles.some(ur => matches(ur, required))`. */
  function SomeRoleMatches(userRoles: seq<RoleRef>, required: string): (b: bool)
    ensures b <==> exists ur | ur in userRoles :: RoleMatches(ur, required)
  {
    userRoles != [] && (RoleMatches(userRoles[0], required) || SomeRoleMatches(userRoles[1..], required))
  }

  /** `allowedRoles.some(r => userRoles.some(ur => matches(ur, r)))`. */
  function HoldsAnyRole(userRoles: seq<RoleRef>, allowed: seq<string>): (b: bool)
    ensures b <==> exists r, ur | r in allowed && ur in userRoles :: RoleMatches(ur, r)
  {
    allowed != [] && (SomeRoleMatches(userRoles, allowed[0]) || HoldsAnyRole(userRoles, allowed[1..]))
  }

  /** `required.some(p => userPermissions.includes(p))`. */
  function IncludesAny(userPermissions: seq<string>, required: seq<string>): (b: bool)
    ensures b <==> exists p | p in required :: p in userPermissions
  {
    required != [] && (required[0] in userPermissions || IncludesAny(userPermissions, required[1..]))
  }

  /** `requireRole(...allowedRoles)` applied to a request whose `req.user` is `user`. */
  function RequireRole(allowed: seq<string>, user: Option<Principal>): (v: Verdict)
    ensures user.None? ==> v == Unauthenticated
    ensures user.Some? ==>
              (v == Next <==> exists r, ur | r in allowed && ur in RolesOf(user.value) :: RoleMatches(ur, r))
    ensures user.Some? && v != Next ==>
              v == Deny(403, "Insufficient permissions", Some(allowed))
  {
    if user.None? then Unauthenticated
    else if !HoldsAnyRole(RolesOf(user.value), allowed) then
      Deny(403, "Insufficient permissions", Some(allowed))
    else Next
  }

  /** `requirePermission(...requiredPermissions)`: exact membership in
      `req.user.permissions || []`. */
  function RequirePermission(required: seq<string>, user: Option<Principal>): (v: Verdict)
    ensures user.None? ==> v == Unauthenticated
    ensures user.Some? ==>
              (v == Next <==> exists p | p in required :: p in PermissionsOf(user.value))
    ensures user.Some? && v != Next ==> v == Deny(403, "Insufficient permissions", None)
  {
    if user.None? then Unauthenticated
    else if !IncludesAny(PermissionsOf(user.value), required) then
      Deny(403, "Insufficient permissions", None)
    else Next
  }

  /** The route parameter `requireOwnershipOrAdmin` reads; `'id'` by default. */
  function OwnerParam(resourceIdParam: Option<string>): string {
    if resourceIdParam.Some? then resourceIdParam.value else "id"
  }

  /** `requireOwnershipOrAdmin(resourceIdParam)`: the owner test is
      `req.user.id === req.params[param]`, so an absent id equals an absent
      parameter (`undefined === undefined`). */
  function RequireOwnershipOrAdmin(
    resourceIdParam: Option<string>, params: seq<(string, string)>, user: Option<Principal>): (v: Verdict)
    ensures user.None? ==> v == Unauthenticated
    ensures user.Some? ==>
              (v == Next <==>
                 user.value.id == Lookup(params, OwnerParam(resourceIdParam)) ||
                 exists ur | ur in RolesOf(user.value) :: RoleMatches(ur, SystemAdmin))
    ensures user.Some? && v != Next ==> v == Deny(403, "Access denied", None)
  {
    if user.None? then Unauthenticated
    else
      var isOwner := user.value.id == Lookup(params, OwnerParam(resourceIdParam));
      var isAdmin := SomeRoleMatches(RolesOf(user.value), SystemAdmin);
      if !isOwner && !isAdmin then Deny(403, "Access denied", None) else Next
  }

  /** Adding roles never turns an allowed request into a denied one. */
  lemma RequireRoleMonotone(allowed: seq<string>, u: Principal, u': Principal)
    requires forall ur :: ur in RolesOf(u) ==> ur in RolesOf(u')
    requires RequireRole(allowed, Some(u)) == Next
    ensures RequireRole(allowed, Some(u')) == Next
  {
    var r, ur :| r in allowed && ur in RolesOf(u) && RoleMatches(ur, r);
    assert ur in RolesOf(u');
  }

  /** A user without `roles`, and `requireRole()` without arguments, deny. */
  lemma RequireRoleEmptyDenies(allowed: seq<string>, u: Principal)
    requires u.roles.None? || allowed == []
    ensures RequireRole(allowed, Some(u)) == Deny(403, "Insufficient permissions", Some(allowed))
  {
  }

  /** Granting a permission never turns an allowed request into a denied one. */
  lemma RequirePermissionMonotone(required: seq<string>, u: Principal, u': Principal)
    requires forall p :: p in PermissionsOf(u) ==> p in PermissionsOf(u')
    requires RequirePermission(required, Some(u)) == Next
    ensures RequirePermission(required, Some(u')) == Next
  {
    var p :| p in required && p in PermissionsOf(u);
    assert p in PermissionsOf(u');
  }

  /** Holding `SYSTEM_ADMIN` passes the ownership guard for every resource. */
  lemma AdminPassesOwnership(resourceIdParam: Option<string>, params: seq<(string, string)>, u: Principal)
    requires RequireRole([SystemAdmin], Some(u)) == Next
    ensures RequireOwnershipOrAdmin(resourceIdParam, params, Some(u)) == Next
  {
    var r, ur :| r in [SystemAdmin] && ur in RolesOf(u) && RoleMatches(ur, r);
    assert r == SystemAdmin;
  }

  /** A principal without an id passes the ownership guard on any route that
      lacks the parameter, whatever its roles. */
  lemma OwnershipWithoutIdOrParam(resourceIdParam: Option<string>, params: seq<(string, string)>, u: Principal)
    requires u.id.None?
    requires forall i :: 0 <= i < |params| ==> params[i].0 != OwnerParam(resourceIdParam)
    ensures RequireOwnershipOrAdmin(resourceIdParam, params, Some(u)) == Next
  {
  }
}

=== FILE: role_controller.dfy ===
/** The role controller of backend/src/controllers/roleController.js.
    The live handlers validate their input and answer with fixed bodies; the
    persistence they are meant to perform exists only as commented-out code.
    `RoleRegistry` models that intended behaviour (create, update, delete and
    permission assignment against a store of roles), kept apart from the live
    handlers, which are modelled as they run. */
module RoleController {
  import opened Values
  import opened Text

  const SystemAdminName := "SYSTEM_ADMIN"
  const SystemAdminId := "11111111-1111-1111-1111-111111111111"

  /** A role as the handlers return it. */
  datatype RoleData = RoleData(name: Value, description: Value, isSystemRole: bool)

  /** A handler's response, or an error handed to Express with `next(error)`. */
  datatype Reply =
    | Respond(status: int, message: string, data: Option<RoleData>)
    | Forward(errorName: string)

  /** `!name || name.trim().length === 0`: the missing or blank names. A name
      that is truthy but not a string makes `name.trim` throw a TypeError. */
  function NameCheck(name: Value): (r: Option<Reply>)
    ensures r == Some(Respond(400, "Role name is required", None)) <==>
              !Truthy(name) || (name.Str? && Trim(name.s) == "")
    ensures r.None? <==> name.Str? && Trim(name.s) != ""
    ensures Truthy(name) && !name.Str? ==> r == Some(Forward("TypeError"))
  {
    if !Truthy(name) then Some(Respond(400, "Role name is required", None))
    else if !name.Str? then Some(Forward("TypeError"))
    else if Trim(name.s) == "" then Some(Respond(400, "Role name is required", None))
    else None
  }

  /** A name holding one character that is not whitespace passes validation. */
  lemma NameWithVisibleCharAccepted(s: string, i: nat)
    requires i < |s| && !IsJsWhitespace(s[i])
    ensures NameCheck(Str(s)).None?
  {
    TrimEmptyIff(s);
  }

  /** A name made only of whitespace is refused as missing. */
  lemma BlankNameRefused(s: string)
    requires s != [] && forall i :: 0 <= i < |s| ==> IsJsWhitespace(s[i])
    ensures NameCheck(Str(s)) == Some(Respond(400, "Role name is required", None))
  {
    TrimEmptyIff(s);
  }

  /** The answer to an error thrown after validation in `createRole`: 409 for
      the unique constraint on the name, any other error handed on unchanged. */
  function CreateFailure(errorName: string): (r: Reply)
    ensures r.Respond? ==> r == Respond(409, "Role with this name already exists", None)
    ensures r.Respond? <==> errorName == "SequelizeUniqueConstraintError"
    ensures r.Forward? ==> r.errorName == errorName
  {
    if errorName == "SequelizeUniqueConstraintError" then
      Respond(409, "Role with this name already exists", None)
    else Forward(errorName)
  }

  /** `createRole` as it runs: `fault` is the error thrown after validation, if any. */
  function CreateRole(name: Value, description: Value, fault: Option<string>): (r: Reply)
    ensures NameCheck(name).Some? ==> r == NameCheck(name).value
    ensures r.Respond? && r.status == 201 <==>
              NameCheck(name).None? && name != Str(SystemAdminName) && fault.None?
    ensures r.Respond? && r.status == 201 ==>
              r == Respond(201, "Role created successfully", Some(RoleData(name, description, false)))
    ensures NameCheck(name).None? && name == Str(SystemAdminName) ==>
              r == Respond(400, "Cannot create SYSTEM_ADMIN role - it is reserved", None)
    ensures NameCheck(name).None? && name != Str(SystemAdminName) && fault.Some? ==>
              r == CreateFailure(fault.value)
  {
    match NameCheck(name)
    case Some(refusal) => refusal
    case None =>
      if name == Str(SystemAdminName) then
        Respond(400, "Cannot create SYSTEM_ADMIN role - it is reserved", None)
      else if fault.Some? then CreateFailure(fault.value)
      else Respond(201, "Role created successfully", Some(RoleData(name, description, false)))
  }

  /** The reserved-name test is an exact comparison: another case, or
      surrounding spaces, pass it. */
  lemma ReservedNameIsExact()
    ensures CreateRole(Str("system_admin"), Undefined, None).Respond?
    ensures CreateRole(Str("system_admin"), Undefined, None).status == 201
    ensures CreateRole(Str(" SYSTEM_ADMIN"), Undefined, None).Respond?
    ensures CreateRole(Str(" SYSTEM_ADMIN"), Undefined, None).status == 201
  {
    NameWithVisibleCharAccepted("system_admin", 0);
    NameWithVisibleCharAccepted(" SYSTEM_ADMIN", 1);
  }

  /** `assignPermissions` as it runs: any array, even empty, is accepted. */
  function AssignPermissions(permissions: Value, fault: Option<string>): (r: Reply)
    ensures r == Respond(400, "Permissions array is required", None) <==> !permissions.Arr?
    ensures permissions.Arr? ==>
              r == if fault.Some? then Forward(fault.value)
                   else Respond(200, "Permissions assigned successfully", None)
  {
    if !Truthy(permissions) || !permissions.Arr? then Respond(400, "Permissions array is required", None)
    else if fault.Some? then Forward(fault.value)
    else Respond(200, "Permissions assigned successfully", None)
  }

  /** A role row. */
  datatype Role = Role(id: string, name: string, description: Option<string>,
                       isSystemRole: bool, permissions: seq<Value>)

  const SystemAdminRole := Role(SystemAdminId, SystemAdminName, Some("Administrateur système avec accès complet"), true, [])

  datatype RoleList = RoleList(data: seq<Role>, count: nat)

  /** `getAllRoles` as it runs: the seed list with its length. */
  function GetAllRoles(): (r: RoleList)
    ensures r.count == |r.data|
    ensures |r.data| == 1 && r.data[0].name == SystemAdminName && r.data[0].isSystemRole
  {
    var roles := [SystemAdminRole];
    RoleList(roles, |roles|)
  }

  /** `updateRole` and `deleteRole` as they run: success whatever the id. */
  function UpdateRoleLive(id: string): (r: Reply)
    ensures r == Respond(200, "Role updated successfully", None)
  {
    Respond(200, "Role updated successfully", None)
  }

  function DeleteRoleLive(id: string): (r: Reply)
    ensures r == Respond(200, "Role deleted successfully", None)
  {
    Respond(200, "Role deleted successfully", None)
  }

  /** `description?.trim() || null`: an absent or blank description is stored
      as null, a string trimmed, and any other value makes `trim` throw. */
  function StoredDescription(description: Value): (d: Attempt<Option<string>>)
    ensures d.Threw? <==> !(description.Undefined? || description.Null? || description.Str?)
    ensures d.Returned? && d.value.Some? <==> description.Str? && Trim(description.s) != ""
    ensures d.Returned? && d.value.Some? ==> d.value.value == Trim(description.s)
  {
    match description
    case Undefined => Returned(None)
    case Null => Returned(None)
    case Str(s) => if Trim(s) == "" then Returned(None) else Returned(Some(Trim(s)))
    case _ => Threw("TypeError")
  }

  /** The replies `createRole` gives before it touches the store, in order:
      the name check, the reserved name, and a description `trim` throws on. */
  function CreateRefusal(name: Value, description: Value): (r: Option<Reply>)
    ensures NameCheck(name).Some? ==> r == NameCheck(name)
    ensures NameCheck(name).None? && name == Str(SystemAdminName) ==>
              r == Some(Respond(400, "Cannot create SYSTEM_ADMIN role - it is reserved", None))
    ensures NameCheck(name).None? && name != Str(SystemAdminName) ==>
              (r.Some? <==> StoredDescription(description).Threw?) && (r.Some? ==> r.value == Forward("TypeError"))
    ensures r.None? ==> name.Str? && Trim(name.s) != "" && StoredDescription(description).Returned?
  {
    if NameCheck(name).Some? then NameCheck(name)
    else if name == Str(SystemAdminName) then Some(Respond(400, "Cannot create SYSTEM_ADMIN role - it is reserved", None))
    else match StoredDescription(description)
         case Threw(e) => Some(Forward(e))
         case Returned(_) => None
  }

  /** Index of the role with id `id`. */
  function IndexOf(roles: seq<Role>, id: string): (i: Option<nat>)
    ensures i.Some? ==> i.value < |roles| && roles[i.value].id == id
    ensures i.None? ==> forall k :: 0 <= k < |roles| ==> roles[k].id != id
  {
    if roles == [] then None
    else if roles[0].id == id then Some(0)
    else match IndexOf(roles[1..], id)
         case None => None
         case Some(k) => Some(k + 1)
  }

  /** The seeded `SYSTEM_ADMIN` row, whatever permissions it was given. */
  predicate SystemEntry(r: Role) {
    r.id == SystemAdminId && r.name == SystemAdminName && r.isSystemRole
  }

  predicate NameTaken(roles: seq<Role>, name: string) {
    exists k :: 0 <= k < |roles| && roles[k].name == name
  }

  /** The store of roles as the commented-out code in the role controller
      intends it: unique ids, unique names (the database constraint), and the
      seeded `SYSTEM_ADMIN` as the one system role. `holders` counts the users
      holding each role. */
  class RoleRegistry {
    var roles: seq<Role>
    var holders: map<string, nat>

    ghost predicate Valid()
      reads this
    {
      ValidRoles(roles)
    }

    constructor ()
      ensures Valid() && roles == [SystemAdminRole] && holders == map[]
    {
      roles := [SystemAdminRole];
      holders := map[];
    }

    /** The number of users holding role `id`. */
    function Holders(id: string): nat
      reads this
    {
      if id in holders then holders[id] else 0
    }

    /** `createRole` with its intended persistence: the name is validated as it
        arrives, then stored trimmed; a stored name that already exists violates
        the unique constraint (409). */
    method Create(newId: string, name: Value, description: Value, permissions: Value) returns (r: Reply)
      requires Valid()
      requires forall k :: 0 <= k < |roles| ==> roles[k].id != newId
      modifies this
      ensures Valid() && holders == old(holders)
      ensures CreateRefusal(name, description).Some? ==> r == CreateRefusal(name, description).value && roles == old(roles)
      ensures CreateRefusal(name, description).None? ==>
                if NameTaken(old(roles), Trim(name.s)) then
                  r == Respond(409, "Role with this name already exists", None) && roles == old(roles)
                else
                  r == Respond(201, "Role created successfully", Some(RoleData(name, description, false))) &&
                  roles == old(roles) + [Role(newId, Trim(name.s), StoredDescription(description).value, false,
                                              if permissions.Arr? then permissions.items else [])]
    {
      var refusal := CreateRefusal(name, description);
      if refusal.Some? {
        return refusal.value;
      }
      var stored := Trim(name.s);
      if NameTaken(roles, stored) {
        return CreateFailure("SequelizeUniqueConstraintError");
      }
      var perms := if permissions.Arr? then permissions.items else [];
      var role := Role(newId, stored, StoredDescription(description).value, false, perms);
      AppendPreservesValid(roles, role);
      roles := roles + [role];
      r := Respond(201, "Role created successfully", Some(RoleData(name, description, false)));
    }

    /** `updateRole` with its intended guards: 404 for an unknown id, 403 for
        the system role; a truthy name is stored trimmed and a renaming onto a
        taken name is a unique-constraint error handed to `next`. */
    method Update(id: string, name: Value, description: Value, permissions: Value) returns (r: Reply)
      requires Valid()
      modifies this
      ensures Valid() && holders == old(holders) && |roles| == |old(roles)|
      ensures IndexOf(old(roles), id).None? ==>
                r == Respond(404, "Role not found", None) && roles == old(roles)
      ensures IndexOf(old(roles), id).Some? && old(roles)[IndexOf(old(roles), id).value].isSystemRole ==>
                r == Respond(403, "Cannot modify system role", None) && roles == old(roles)
      ensures IndexOf(old(roles), id).Some? && !old(roles)[IndexOf(old(roles), id).value].isSystemRole ==>
                var i := IndexOf(old(roles), id).value;
                var role := old(roles)[i];
                if Truthy(name) && !name.Str? then
                  r == Forward("TypeError") && roles == old(roles)
                else if description != Undefined && StoredDescription(description).Threw? then
                  r == Forward("TypeError") && roles == old(roles)
                else
                  var newName := if Truthy(name) then Trim(name.s) else role.name;
                  var newDescription := if description == Undefined then role.description
                                        else StoredDescription(description).value;
                  if newName != role.name && NameTaken(old(roles), newName) then
                    r == Forward("SequelizeUniqueConstraintError") && roles == old(roles)
                  else
                    r == Respond(200, "Role updated successfully", None) &&
                    roles == old(roles)[i := role.(name := newName, description := newDescription,
                                                   permissions := if permissions.Arr? then permissions.items
                                                                  else role.permissions)]
    {
      var idx := IndexOf(roles, id);
      if idx.None? {
        return Respond(404, "Role not found", None);
      }
      var i := idx.value;
      var role := roles[i];
      if role.isSystemRole {
        return Respond(403, "Cannot modify system role", None);
      }
      if Truthy(name) {
        if !name.Str? {
          return Forward("TypeError");
        }
        role := role.(name := Trim(name.s));
      }
      if description != Undefined {
        var desc := StoredDescription(description);
        if desc.Threw? {
          return Forward(desc.name);
        }
        role := role.(description := desc.value);
      }
      if role.name != roles[i].name && NameTaken(roles, role.name) {
        return Forward("SequelizeUniqueConstraintError");
      }
      if Truthy(permissions) && permissions.Arr? {
        role := role.(permissions := permissions.items);
      }
      UpdatePreservesValid(roles, i, role);
      roles := roles[i := role];
      r := Respond(200, "Role updated successfully", None);
    }

    /** `deleteRole` with its intended guards: 404, then 403 for the system
        role, then 409 while users hold the role. */
    method Delete(id: string) returns (r: Reply)
      requires Valid()
      modifies this
      ensures Valid() && holders == old(holders)
      ensures IndexOf(old(roles), id).None? ==> r == Respond(404, "Role not found", None) && roles == old(roles)
      ensures IndexOf(old(roles), id).Some? && old(roles)[IndexOf(old(roles), id).value].isSystemRole ==>
                r == Respond(403, "Cannot delete system role", None) && roles == old(roles)
      ensures IndexOf(old(roles), id).Some? && !old(roles)[IndexOf(old(roles), id).value].isSystemRole &&
                Holders(id) > 0 ==>
                r == Respond(409, "Cannot delete role - it is assigned to " + NatToString(Holders(id)) + " user(s)", None) &&
                roles == old(roles)
      ensures IndexOf(old(roles), id).Some? && !old(roles)[IndexOf(old(roles), id).value].isSystemRole &&
                Holders(id) == 0 ==>
                var i := IndexOf(old(roles), id).value;
                r == Respond(200, "Role deleted successfully", None) && roles == old(roles)[..i] + old(roles)[i + 1..]
      ensures r == Respond(200, "Role deleted successfully", None) <==> roles != old(roles)
      ensures roles != old(roles) ==>
                var i := IndexOf(old(roles), id).value;
                roles == old(roles)[..i] + old(roles)[i + 1..]
    {
      var idx := IndexOf(roles, id);
      if idx.None? {
        return Respond(404, "Role not found", None);
      }
      var i := idx.value;
      if roles[i].isSystemRole {
        return Respond(403, "Cannot delete system role", None);
      }
      var users := Holders(id);
      if users > 0 {
        return Respond(409, "Cannot delete role - it is assigned to " + NatToString(users) + " user(s)", None);
      }
      DeletePreservesValid(roles, i);
      roles := roles[..i] + roles[i + 1..];
      r := Respond(200, "Role deleted successfully", None);
    }

    /** `assignPermissions` with its intended persistence: the array check,
        then 404 for an unknown id, then the role's permissions replaced. */
    method AssignPermissions(id: string, permissions: Value) returns (r: Reply)
      requires Valid()
      modifies this
      ensures Valid() && holders == old(holders) && |roles| == |old(roles)|
      ensures !permissions.Arr? ==> r == Respond(400, "Permissions array is required", None) && roles == old(roles)
      ensures permissions.Arr? && IndexOf(old(roles), id).None? ==>
                r == Respond(404, "Role not found", None) && roles == old(roles)
      ensures permissions.Arr? && IndexOf(old(roles), id).Some? ==>
                r == Respond(200, "Permissions assigned successfully", None) &&
                var i := IndexOf(old(roles), id).value;
                roles == old(roles)[i := old(roles)[i].(permissions := permissions.items)]
    {
      if !Truthy(permissions) || !permissions.Arr? {
        return Respond(400, "Permissions array is required", None);
      }
      var idx := IndexOf(roles, id);
      if idx.None? {
        return Respond(404, "Role not found", None);
      }
      var i := idx.value;
      var role := roles[i].(permissions := permissions.items);
      UpdatePreservesValid(roles, i, role);
      roles := roles[i := role];
      r := Respond(200, "Permissions assigned successfully", None);
    }

    /** Records that `count` users hold role `id` (`role.countUsers()`). */
    method SetHolders(id: string, count: nat)
      requires Valid()
      modifies this
      ensures Valid() && roles == old(roles) && holders == old(holders)[id := count]
    {
      holders := holders[id := count];
    }
  }

  /** The parts of `RoleRegistry.Valid` over a plain list of roles. */
  ghost predicate ValidRoles(roles: seq<Role>) {
    && (forall a, b :: 0 <= a < b < |roles| ==> roles[a].id != roles[b].id && roles[a].name != roles[b].name)
    && (forall a :: 0 <= a < |roles| && roles[a].isSystemRole ==> SystemEntry(roles[a]))
    && |roles| > 0 && roles[0].isSystemRole
  }

  /** Appending a non-system role with a fresh id and a free name keeps the
      store well formed. */
  lemma AppendPreservesValid(roles: seq<Role>, role: Role)
    requires ValidRoles(roles)
    requires forall k :: 0 <= k < |roles| ==> roles[k].id != role.id
    requires !NameTaken(roles, role.name) && !role.isSystemRole
    ensures ValidRoles(roles + [role])
  {
    var rs := roles + [role];
    assert forall a :: 0 <= a < |roles| ==> rs[a] == roles[a];
    assert rs[|roles|] == role;
  }

  /** Replacing an entry by one with the same id, the same system flag and a
      name that is its own or free keeps the store well formed. */
  lemma UpdatePreservesValid(roles: seq<Role>, i: nat, role: Role)
    requires i < |roles| && ValidRoles(roles)
    requires role.id == roles[i].id && role.isSystemRole == roles[i].isSystemRole
    requires role.name == roles[i].name || (!NameTaken(roles, role.name) && !role.isSystemRole)
    ensures ValidRoles(roles[i := role])
  {
  }

  /** Removing a non-system entry keeps the store well formed. */
  lemma DeletePreservesValid(roles: seq<Role>, i: nat)
    requires i < |roles| && ValidRoles(roles) && !roles[i].isSystemRole
    ensures ValidRoles(roles[..i] + roles[i + 1..])
  {
    var rs := roles[..i] + roles[i + 1..];
    assert forall a :: 0 <= a < |rs| ==> rs[a] == roles[if a < i then a else a + 1];
  }
}

=== FILE: signature_service.dfy ===
/** The signature service of backend/src/services/signatureService.js: the
    signature record that binds a user, an application and a workflow step to
    the hash of the signed data, the canonical text that hash is taken over,
    and the failure behaviour of document-signature verification.
    SHA-256 and the RSA primitives are outside the model: the hash is an
    uninterpreted function `hash` and the RSA check an oracle. */
module SignatureService {
  import opened Values

  // ---------------------------------------------------------------------
  // Canonical text: `typeof data === 'string' ? data : JSON.stringify(data)`
  // ---------------------------------------------------------------------

  function HexDigit(d: nat): char
    requires d < 16
  {
    "0123456789abcdef"[d]
  }

  /** How `JSON.stringify` writes one character inside a string literal. */
  function EscapeChar(c: char): (e: string)
    ensures |e| > 0
    ensures e[0] == '\\' <==> |e| > 1
  {
    if c == '"' then "\\\""
    else if c == '\\' then "\\\\"
    else if c == '\U{8}' then "\\b"
    else if c == '\U{C}' then "\\f"
    else if c == '\U{A}' then "\\n"
    else if c == '\U{D}' then "\\r"
    else if c == '\U{9}' then "\\t"
    else if (c as int) < 0x20 then "\\u00" + [HexDigit(c as int / 16), HexDigit(c as int % 16)]
    else [c]
  }

  function Escape(s: string): string {
    if s == [] then [] else EscapeChar(s[0]) + Escape(s[1..])
  }

  /** A JSON string literal. */
  function Quote(s: string): (q: string)
    ensures |q| >= 2 && q[0] == '"' && q[|q| - 1] == '"'
  {
    "\"" + Escape(s) + "\""
  }

  function Join(parts: seq<string>, sep: string): string {
    if parts == [] then ""
    else if |parts| == 1 then parts[0]
    else parts[0] + sep + Join(parts[1..], sep)
  }

  /** `JSON.stringify(v)`: `None` where it returns `undefined` (for `undefined`
      itself); numbers are integers and print in decimal. */
  function Stringify(v: Value): (r: Option<string>)
    ensures r.None? <==> v.Undefined?
    decreases v, 1, 0
  {
    match v
    case Undefined => None
    case Null => Some("null")
    case Bool(b) => Some(if b then "true" else "false")
    case Num(n) => Some(IntToString(n))
    case Str(s) => Some(Quote(s))
    case Arr(items) => Some("[" + Join(ItemTexts(v, 0), ",") + "]")
    case Obj(fields) => Some("{" + Join(MemberTexts(v, 0), ",") + "}")
  }

  /** The elements of array `v` from index `from` on: `undefined` is written as `null`. */
  function ItemTexts(v: Value, from: nat): (ts: seq<string>)
    requires v.Arr? && from <= |v.items|
    ensures |ts| == |v.items| - from
    decreases v, 0, |v.items| - from
  {
    if from == |v.items| then []
    else
      var t := Stringify(v.items[from]);
      [if t.Some? then t.value else "null"] + ItemTexts(v, from + 1)
  }

  /** The members of object `v` from index `from` on: a property whose value is
      `undefined` is skipped. */
  function MemberTexts(v: Value, from: nat): (ts: seq<string>)
    requires v.Obj? && from <= |v.fields|
    ensures |ts| <= |v.fields| - from
    decreases v, 0, |v.fields| - from
  {
    if from == |v.fields| then []
    else
      var t := Stringify(v.fields[from].1);
      (if t.Some? then [Quote(v.fields[from].0) + ":" + t.value] else []) + MemberTexts(v, from + 1)
  }

  /** The text `generateHash` hashes: a string as it is, anything else as JSON;
      `None` for `undefined`, on which the hash update throws. */
  function Canonical(data: Value): (c: Option<string>)
    ensures data.Str? ==> c == Some(data.s)
    ensures !data.Str? ==> c == Stringify(data)
    ensures c.None? <==> data.Undefined?
  {
    if data.Str? then Some(data.s) else Stringify(data)
  }

  /** `generateHash(data)`: the hex digest of the canonical text. */
  function GenerateHash(data: Value, hash: string -> string): (h: Attempt<string>)
    ensures h.Returned? <==> !data.Undefined?
    ensures h.Returned? ==> h.value == hash(Canonical(data).value)
  {
    match Canonical(data)
    case Some(text) => Returned(hash(text))
    case None => Threw("TypeError")
  }

  // ---------------------------------------------------------------------
  // Decoding a JSON string body, the partner of `Escape`.
  // ---------------------------------------------------------------------

  function HexValue(c: char): Option<nat> {
    if '0' <= c <= '9' then Some(c as int - '0' as int)
    else if 'a' <= c <= 'f' then Some(c as int - 'a' as int + 10)
    else if 'A' <= c <= 'F' then Some(c as int - 'A' as int + 10)
    else None
  }

  /** The characters a JSON string body denotes, or `None` when it is malformed
      (a raw control character or quote, an unknown escape). Only `\u` escapes
      below 0x100 are read, which are all `Escape` writes. */
  function Unescape(t: string): Option<string>
    decreases |t|
  {
    if t == [] then Some([])
    else if t[0] == '\\' then
      if |t| < 2 then None
      else
        var c: Option<char> :=
          if t[1] == '"' then Some('"') else if t[1] == '\\' then Some('\\')
          else if t[1] == 'b' then Some('\U{8}') else if t[1] == 'f' then Some('\U{C}')
          else if t[1] == 'n' then Some('\U{A}') else if t[1] == 'r' then Some('\U{D}')
          else if t[1] == 't' then Some('\U{9}') else None;
        if c.Some? then
          match Unescape(t[2..])
          case Some(rest) => Some([c.value] + rest)
          case None => None
        else if t[1] == 'u' && |t| >= 6 && t[2] == '0' && t[3] == '0' &&
                HexValue(t[4]).Some? && HexValue(t[5]).Some? then
          match Unescape(t[6..])
          case Some(rest) => Some([(HexValue(t[4]).value * 16 + HexValue(t[5]).value) as char] + rest)
          case None => None
        else None
    else if t[0] == '"' || (t[0] as int) < 0x20 then None
    else
      match Unescape(t[1..])
      case Some(rest) => Some([t[0]] + rest)
      case None => None
  }

  lemma {:induction false} HexRoundTrip(d: nat)
    requires d < 16
    ensures HexValue(HexDigit(d)) == Some(d)
  {
  }

  /** Decoding one escaped character followed by more text gives the
      character followed by the decoding of the rest. */
  lemma {:induction false} UnescapeChar(c: char, t: string)
    ensures Unescape(EscapeChar(c) + t) ==
              match Unescape(t) case Some(rest) => Some([c] + rest) case None => None
  {
    if c in {'"', '\\', '\U{8}', '\U{C}', '\U{A}', '\U{D}', '\U{9}'} {
      UnescapeNamed(c, t);
    } else if (c as int) < 0x20 {
      UnescapeControl(c, t);
    } else {
      var et := EscapeChar(c) + t;
      assert et[1..] == t;
    }
  }

  /** A character with a two-character escape. */
  lemma {:induction false} UnescapeNamed(c: char, t: string)
    requires c in {'"', '\\', '\U{8}', '\U{C}', '\U{A}', '\U{D}', '\U{9}'}
    ensures Unescape(EscapeChar(c) + t) ==
              match Unescape(t) case Some(rest) => Some([c] + rest) case None => None
  {
    var et := EscapeChar(c) + t;
    assert |EscapeChar(c)| == 2 && et[2..] == t;
  }

  /** Any other control character, written as a `\u00` escape. */
  lemma {:induction false} UnescapeControl(c: char, t: string)
    requires (c as int) < 0x20 && c !in {'"', '\\', '\U{8}', '\U{C}', '\U{A}', '\U{D}', '\U{9}'}
    ensures Unescape(EscapeChar(c) + t) ==
              match Unescape(t) case Some(rest) => Some([c] + rest) case None => None
  {
    var e := EscapeChar(c);
    assert e == "\\u00" + [HexDigit(c as int / 16), HexDigit(c as int % 16)];
    HexRoundTrip(c as int / 16);
    HexRoundTrip(c as int % 16);
    var et := e + t;
    assert et[6..] == t;
  }

  /** Decoding the escaped text gives back the string. */
  lemma {:induction false} EscapeRoundTrip(s: string)
    ensures Unescape(Escape(s)) == Some(s)
    decreases |s|
  {
    if s != [] {
      EscapeRoundTrip(s[1..]);
      UnescapeChar(s[0], Escape(s[1..]));
      assert [s[0]] + s[1..] == s;
    }
  }

  /** The body of a quoted string decodes to the string, so distinct strings
      have distinct JSON texts. */
  lemma {:induction false} QuoteInjective(a: string, b: string)
    requires Quote(a) == Quote(b)
    ensures a == b
  {
    EscapeRoundTrip(a);
    EscapeRoundTrip(b);
    assert Escape(a) == Quote(a)[1..|Quote(a)| - 1];
    assert Escape(b) == Quote(b)[1..|Quote(b)| - 1];
  }

  /** A string is hashed as it is while everything else is hashed as JSON, so
      the string `'null'` and the value `null` (or `'true'` and `true`) get the
      same hash whatever the hash function. */
  lemma {:induction false} StringAndJsonCollide(hash: string -> string)
    ensures GenerateHash(Str("null"), hash) == GenerateHash(Null, hash)
    ensures GenerateHash(Str("true"), hash) == GenerateHash(Bool(true), hash)
  {
  }

  // ---------------------------------------------------------------------
  // Signature records.
  // ---------------------------------------------------------------------

  datatype SignatureRecord = SignatureRecord(
    id: string,
    applicationId: string,
    workflowStepId: string,
    userId: string,
    signatureData: Value,
    signatureHash: string,
    ipAddress: Option<string>,
    userAgent: Option<string>,
    signedAt: int)

  /** The request fields the record copies. */
  datatype ClientInfo = ClientInfo(ip: Option<string>, remoteAddress: Option<string>, userAgent: Option<string>)

  /** `createSignature`: `id` is the fresh UUID and `now` the clock; for
      `undefined` data the hash throws and the error is rethrown. */
  function CreateSignature(userId: string, applicationId: string, stepId: string, signatureData: Value,
                           client: ClientInfo, id: string, now: int, hash: string -> string): (r: Attempt<SignatureRecord>)
    ensures r.Threw? <==> signatureData.Undefined?
    ensures r.Returned? ==>
              r.value.userId == userId && r.value.applicationId == applicationId &&
              r.value.workflowStepId == stepId && r.value.signatureData == signatureData &&
              Returned(r.value.signatureHash) == GenerateHash(signatureData, hash)
    ensures r.Returned? ==>
              r.value.ipAddress == (if Filled(client.ip) then client.ip else client.remoteAddress)
    ensures r.Returned? ==> r.value.id == id && r.value.userAgent == client.userAgent && r.value.signedAt == now
  {
    match GenerateHash(signatureData, hash)
    case Threw(e) => Threw(e)
    case Returned(h) =>
      Returned(SignatureRecord(id, applicationId, stepId, userId, signatureData, h,
                               if Filled(client.ip) then client.ip else client.remoteAddress,
                               client.userAgent, now))
  }

  /** The verification the comments of `verifySignature` describe: recompute
      the hash of the stored data and compare it with the stored hash. A hash
      that throws (`undefined` data) is logged and rethrown by the catch block. */
  function VerifyIntended(record: SignatureRecord, hash: string -> string): (ok: Attempt<bool>)
    ensures ok.Threw? <==> record.signatureData.Undefined?
    ensures ok.Threw? ==> ok.name == GenerateHash(record.signatureData, hash).name
    ensures ok == Returned(true) <==> GenerateHash(record.signatureData, hash) == Returned(record.signatureHash)
  {
    match GenerateHash(record.signatureData, hash)
    case Returned(h) => Returned(h == record.signatureHash)
    case Threw(e) => Threw(e)
  }

  /** `verifySignature` as it runs: it reports every signature as valid. */
  function VerifySignatureLive(signatureId: string): (ok: bool)
    ensures ok
  {
    true
  }

  /** A record that was just created verifies. */
  lemma {:induction false} CreatedSignatureVerifies(
    userId: string, applicationId: string, stepId: string, signatureData: Value,
    client: ClientInfo, id: string, now: int, hash: string -> string)
    requires CreateSignature(userId, applicationId, stepId, signatureData, client, id, now, hash).Returned?
    ensures VerifyIntended(CreateSignature(userId, applicationId, stepId, signatureData, client, id, now, hash).value, hash)
            == Returned(true)
  {
  }

  /** With a hash free of collisions, replacing the stored data by data of a
      different canonical text makes verification fail. */
  lemma {:induction false} TamperingDetected(record: SignatureRecord, forged: Value, hash: string -> string)
    requires forall a, b :: hash(a) == hash(b) ==> a == b
    requires VerifyIntended(record, hash) == Returned(true)
    requires Canonical(forged) != Canonical(record.signatureData)
    ensures VerifyIntended(record.(signatureData := forged), hash) != Returned(true)
  {
  }

  /** With a hash free of collisions, two strings verify against the same
      record only when they are equal. */
  lemma {:induction false} StringDataBound(record: SignatureRecord, a: string, b: string, hash: string -> string)
    requires forall x, y :: hash(x) == hash(y) ==> x == y
    requires VerifyIntended(record.(signatureData := Str(a)), hash) == Returned(true)
    requires VerifyIntended(record.(signatureData := Str(b)), hash) == Returned(true)
    ensures a == b
  {
  }

  /** `verifyDocumentSignature`: the PEM parsing, base64 decoding and RSA check
      are the oracle `check`; whatever it throws becomes `false`. */
  function VerifyDocumentSignature(documentData: string, signature: string, publicKeyPem: string,
                                   check: (string, string, string) -> Attempt<bool>): (ok: bool)
    ensures ok <==> check(documentData, signature, publicKeyPem) == Returned(true)
  {
    match check(documentData, signature, publicKeyPem)
    case Returned(b) => b
    case Threw(_) => false
  }
}

=== FILE: text.dfy ===
/** String operations of the JavaScript standard library that the core uses. */
module Text {

  /** The characters `String.prototype.trim` removes: WhiteSpace and
      LineTerminator of ECMA-262 (section 12.2 and 12.3 of ECMA-262, 2023). */
  predicate IsJsWhitespace(c: char) {
    c == '\U{9}' || c == '\U{B}' || c == '\U{C}' || c == ' ' ||
    c == '\U{A0}' || c == '\U{FEFF}' || c == '\U{A}' || c == '\U{D}' ||
    c == '\U{2028}' || c == '\U{2029}' || c == '\U{1680}' ||
    ('\U{2000}' <= c <= '\U{200A}') || c == '\U{202F}' || c == '\U{205F}' || c == '\U{3000}'
  }

  function TrimStart(s: string): string {
    if s == [] || !IsJsWhitespace(s[0]) then s else TrimStart(s[1..])
  }

  function TrimEnd(s: string): string {
    if s == [] || !IsJsWhitespace(s[|s| - 1]) then s else TrimEnd(s[..|s| - 1])
  }

  /** `s.trim()`. */
  function Trim(s: string): string {
    TrimEnd(TrimStart(s))
  }

  /** `TrimStart` drops exactly the leading whitespace. */
  lemma {:induction false} TrimStartDrops(s: string)
    ensures |TrimStart(s)| <= |s| && TrimStart(s) == s[|s| - |TrimStart(s)|..]
    ensures TrimStart(s) == [] || !IsJsWhitespace(TrimStart(s)[0])
    ensures forall i :: 0 <= i < |s| - |TrimStart(s)| ==> IsJsWhitespace(s[i])
  {
    if s != [] && IsJsWhitespace(s[0]) {
      var t := s[1..];
      TrimStartDrops(t);
      var r := TrimStart(t);
      assert TrimStart(s) == r;
      assert t[|t| - |r|..] == s[|s| - |r|..];
      forall i | 0 <= i < |s| - |r|
        ensures IsJsWhitespace(s[i])
      {
        if i > 0 {
          assert s[i] == t[i - 1];
        }
      }
    }
  }

  /** `TrimEnd` drops exactly the trailing whitespace. */
  lemma {:induction false} TrimEndDrops(s: string)
    ensures |TrimEnd(s)| <= |s| && TrimEnd(s) == s[..|TrimEnd(s)|]
    ensures TrimEnd(s) == [] || !IsJsWhitespace(TrimEnd(s)[|TrimEnd(s)| - 1])
    ensures forall i :: |TrimEnd(s)| <= i < |s| ==> IsJsWhitespace(s[i])
  {
    if s != [] && IsJsWhitespace(s[|s| - 1]) {
      var t := s[..|s| - 1];
      TrimEndDrops(t);
      var r := TrimEnd(t);
      assert TrimEnd(s) == r;
      assert t[..|r|] == s[..|r|];
      forall i | |r| <= i < |s|
        ensures IsJsWhitespace(s[i])
      {
        if i < |s| - 1 {
          assert s[i] == t[i];
        }
      }
    }
  }

  /** `s.trim()` is empty exactly when every character of `s` is whitespace. */
  lemma TrimEmptyIff(s: string)
    ensures Trim(s) == "" <==> forall i :: 0 <= i < |s| ==> IsJsWhitespace(s[i])
  {
    var t := TrimStart(s);
    TrimStartDrops(s);
    TrimEndDrops(t);
    if Trim(s) == "" {
      // TrimEnd(t) is empty, so t is all whitespace; as t does not start with
      // whitespace, it is empty and TrimStart consumed all of s.
      assert t == [];
    } else {
      assert t != [] && !IsJsWhitespace(t[0]);
      assert s[|s| - |t|] == t[0];
    }
  }

  /** `s.trim()` is a slice of `s` that neither starts nor ends with whitespace. */
  lemma TrimShape(s: string)
    ensures var r := Trim(s); r == [] || (!IsJsWhitespace(r[0]) && !IsJsWhitespace(r[|r| - 1]))
  {
    var t := TrimStart(s);
    TrimStartDrops(s);
    TrimEndDrops(t);
    var r := TrimEnd(t);
    if r != [] {
      assert r[0] == t[0];
    }
  }

  /** `s.startsWith(p)`. */
  predicate StartsWith(s: string, p: string) {
    |p| <= |s| && s[..|p|] == p
  }

  /** `s.split('/').pop()`: the text after the last '/', or all of `s`. */
  function LastSegment(s: string): (r: string)
    ensures |r| <= |s| && r == s[|s| - |r|..]
    ensures '/' !in r
    ensures |r| < |s| ==> s[|s| - |r| - 1] == '/'
    ensures r == [] <==> s == [] || s[|s| - 1] == '/'
  {
    if s == [] then []
    else if s[|s| - 1] == '/' then []
    else
      var r := LastSegment(s[..|s| - 1]);
      r + [s[|s| - 1]]
  }
}

=== FILE: values.dfy ===
/** JavaScript values as the request handlers see them, with the property
    lookups and the truthiness rule the handlers rely on.
    Numbers are modelled as integers; an object is the sequence of its own
    properties in insertion order. */
module Values {

  datatype Option<T> = None | Some(value: T)

  /** The outcome of a call into code outside the model: a returned value or
      an exception, identified by its `name`. */
  datatype Attempt<T> = Returned(value: T) | Threw(name: string)

  datatype Value =
    | Undefined
    | Null
    | Bool(b: bool)
    | Num(n: int)
    | Str(s: string)
    | Arr(items: seq<Value>)
    | Obj(fields: seq<(string, Value)>)

  /** JavaScript's ToBoolean: `undefined`, `null`, `false`, `0` and `''` are falsy. */
  predicate Truthy(v: Value) {
    match v
    case Undefined => false
    case Null => false
    case Bool(b) => b
    case Num(n) => n != 0
    case Str(s) => s != ""
    case Arr(_) => true
    case Obj(_) => true
  }

  /** An optional string that is present and non-empty, i.e. truthy. */
  predicate Filled(o: Option<string>) {
    o.Some? && o.value != ""
  }

  /** `o[k]` on an object's own properties: the first pair with key `k`. */
  function Lookup<V>(ps: seq<(string, V)>, k: string): (r: Option<V>)
    ensures r.None? <==> forall i :: 0 <= i < |ps| ==> ps[i].0 != k
    ensures r.Some? ==> (k, r.value) in ps
  {
    if ps == [] then None
    else if ps[0].0 == k then Some(ps[0].1)
    else
      var r := Lookup(ps[1..], k);
      assert forall i :: 1 <= i < |ps| ==> ps[i] == ps[1..][i - 1];
      r
  }

  /** The pair `Lookup` finds is the first one with the key. */
  lemma {:induction false} LookupFirst<V>(ps: seq<(string, V)>, k: string, i: nat)
    requires i < |ps| && ps[i].0 == k
    requires forall j :: 0 <= j < i ==> ps[j].0 != k
    ensures Lookup(ps, k) == Some(ps[i].1)
    decreases i
  {
    if i > 0 {
      assert ps[1..][i - 1] == ps[i];
      LookupFirst(ps[1..], k, i - 1);
    }
  }

  /** Property read on a JavaScript object: a missing property reads as `undefined`. */
  function Get(ps: seq<(string, Value)>, k: string): Value {
    match Lookup(ps, k)
    case Some(v) => v
    case None => Undefined
  }

  /** Every key occurs once, as in any JavaScript object. */
  predicate UniqueKeys<V>(ps: seq<(string, V)>) {
    forall i, j :: 0 <= i < j < |ps| ==> ps[i].0 != ps[j].0
  }

  /** Overwrites the value of the pairs with key `k`, keeping their position. */
  function Replace<V>(ps: seq<(string, V)>, k: string, v: V): (r: seq<(string, V)>)
    ensures |r| == |ps|
    ensures forall i :: 0 <= i < |ps| ==> r[i].0 == ps[i].0
    ensures forall i :: 0 <= i < |ps| ==> r[i].1 == if ps[i].0 == k then v else ps[i].1
  {
    seq(|ps|, i requires 0 <= i < |ps| => if ps[i].0 == k then (k, v) else ps[i])
  }

  /** `o[k] = v`: an existing property keeps its place, a new one is appended. */
  function Assign<V>(ps: seq<(string, V)>, k: string, v: V): (r: seq<(string, V)>)
    ensures Lookup(r, k) == Some(v)
    ensures forall j :: j != k ==> Lookup(r, j) == Lookup(ps, j)
    ensures UniqueKeys(ps) ==> UniqueKeys(r)
  {
    if Lookup(ps, k).Some? then
      var r := Replace(ps, k, v);
      ReplaceLookup(ps, k, v);
      r
    else
      var r := ps + [(k, v)];
      AppendLookup(ps, k, v);
      r
  }

  lemma {:induction false} ReplaceLookup<V>(ps: seq<(string, V)>, k: string, v: V)
    requires Lookup(ps, k).Some?
    ensures Lookup(Replace(ps, k, v), k) == Some(v)
    ensures forall j :: j != k ==> Lookup(Replace(ps, k, v), j) == Lookup(ps, j)
  {
    var r := Replace(ps, k, v);
    if ps[0].0 == k {
      assert r[0] == (k, v);
      forall j | j != k ensures Lookup(r, j) == Lookup(ps, j) {
        ReplaceLookupOther(ps, k, v, j);
      }
    } else {
      assert r[1..] == Replace(ps[1..], k, v);
      ReplaceLookup(ps[1..], k, v);
      forall j | j != k ensures Lookup(r, j) == Lookup(ps, j) {
        ReplaceLookupOther(ps, k, v, j);
      }
    }
  }

  lemma {:induction false} ReplaceLookupOther<V>(ps: seq<(string, V)>, k: string, v: V, j: string)
    requires j != k
    ensures Lookup(Replace(ps, k, v), j) == Lookup(ps, j)
  {
    if ps != [] {
      var r := Replace(ps, k, v);
      assert r[1..] == Replace(ps[1..], k, v);
      ReplaceLookupOther(ps[1..], k, v, j);
    }
  }

  lemma {:induction false} AppendLookup<V>(ps: seq<(string, V)>, k: string, v: V)
    requires Lookup(ps, k).None?
    ensures Lookup(ps + [(k, v)], k) == Some(v)
    ensures forall j :: j != k ==> Lookup(ps + [(k, v)], j) == Lookup(ps, j)
  {
    if ps != [] {
      assert (ps + [(k, v)])[1..] == ps[1..] + [(k, v)];
      AppendLookup(ps[1..], k, v);
    }
  }

  /** In an object with unique keys, reading the key of a pair gives its value. */
  lemma {:induction false} LookupUnique<V>(ps: seq<(string, V)>, i: int)
    requires UniqueKeys(ps) && 0 <= i < |ps|
    ensures Lookup(ps, ps[i].0) == Some(ps[i].1)
  {
    if i > 0 {
      assert ps[1..][i - 1] == ps[i];
      LookupUnique(ps[1..], i - 1);
    }
  }

  /** Two objects with the same keys in the same places and the same values
      under `k` read the same at `k`. */
  lemma {:induction false} LookupAgree<V>(a: seq<(string, V)>, b: seq<(string, V)>, k: string)
    requires |a| == |b|
    requires forall i :: 0 <= i < |a| ==> a[i].0 == b[i].0
    requires forall i :: 0 <= i < |a| && a[i].0 == k ==> a[i].1 == b[i].1
    ensures Lookup(a, k) == Lookup(b, k)
  {
    if a != [] && a[0].0 != k {
      LookupAgree(a[1..], b[1..], k);
    }
  }

  function DigitChar(d: nat): char
    requires d < 10
  {
    "0123456789"[d]
  }

  /** Decimal text of a natural number, as `String(n)` writes it. */
  function NatToString(n: nat): (r: string)
    ensures |r| > 0
    ensures forall i :: 0 <= i < |r| ==> '0' <= r[i] <= '9'
    decreases n
  {
    if n < 10 then [DigitChar(n)] else NatToString(n / 10) + [DigitChar(n % 10)]
  }

  /** Decimal text of an integer, with a leading '-' when negative. */
  function IntToString(n: int): string {
    if n < 0 then "-" + NatToString(-n) else NatToString(n)
  }
}

=== FILE: workflow_engine.dfy ===
/** The workflow engine of backend/src/services/workflowEngine.js: the table
    that dispatches a workflow action to its handler, the handlers' results,
    the list of available actions and the step-completion aggregate. The step
    graph and its transitions are not implemented by the engine (they exist
    only as plans in comments) and are not modelled. */
module WorkflowEngine {
  import opened Values

  datatype ActionKind = Approve | Reject | RequestChanges | Submit | Complete

  /** The key of each handler in the dispatch table. */
  function ActionName(k: ActionKind): string {
    match k
    case Approve => "approve"
    case Reject => "reject"
    case RequestChanges => "request_changes"
    case Submit => "submit"
    case Complete => "complete"
  }

  /** The handler an action name selects among the table's own keys. */
  function ParseAction(action: string): (k: Option<ActionKind>)
    ensures k.Some? ==> ActionName(k.value) == action
  {
    if action == "approve" then Some(Approve)
    else if action == "reject" then Some(Reject)
    else if action == "request_changes" then Some(RequestChanges)
    else if action == "submit" then Some(Submit)
    else if action == "complete" then Some(Complete)
    else None
  }

  /** Every handler is reached through its own name. */
  lemma {:induction false} ParseActionRoundTrip(k: ActionKind)
    ensures ParseAction(ActionName(k)) == Some(k)
  {
  }

  datatype ActionResult = ActionResult(success: bool, action: string)

  /** The handlers' results: each reports success and its own past tense. */
  function Handle(k: ActionKind): (r: ActionResult)
    ensures r.success
  {
    match k
    case Approve => ActionResult(true, "approved")
    case Reject => ActionResult(true, "rejected")
    case RequestChanges => ActionResult(true, "changes_requested")
    case Submit => ActionResult(true, "submitted")
    case Complete => ActionResult(true, "completed")
  }

  /** Different actions report different results. */
  lemma {:induction false} HandleInjective(a: ActionKind, b: ActionKind)
    requires Handle(a) == Handle(b)
    ensures a == b
  {
    assert Handle(a).action[0] == Handle(b).action[0];
    if Handle(a).action[0] == 'c' {
      assert Handle(a).action[1] == Handle(b).action[1];
    }
  }

  /** What `processAction` does: run a handler, throw an error, or call a
      member that every object inherits from `Object.prototype`. */
  datatype Dispatch =
    | Handled(result: ActionResult)
    | Failed(message: string)
    | InheritedMember(name: string)

  /** The names an object literal answers through its prototype: the
      properties of `Object.prototype`, all of them truthy. */
  const ObjectPrototypeMembers: set<string> := {
    "constructor", "__defineGetter__", "__defineSetter__", "hasOwnProperty",
    "__lookupGetter__", "__lookupSetter__", "isPrototypeOf", "propertyIsEnumerable",
    "toString", "valueOf", "__proto__", "toLocaleString"}

  /** `processAction` as written: `actionHandlers[action]` reads inherited
      properties too, so a prototype member is found as a "handler" and the
      unknown-action error is not raised for it. */
  function ProcessActionAsWritten(action: string): (d: Dispatch)
    ensures d.InheritedMember? <==> ParseAction(action).None? && action in ObjectPrototypeMembers
  {
    match ParseAction(action)
    case Some(k) => Handled(Handle(k))
    case None =>
      if action in ObjectPrototypeMembers then InheritedMember(action)
      else Failed("Unknown action: " + action)
  }

  /** `processAction` with the lookup restricted to the table's own keys:
      exactly the five actions are handled, and anything else is the
      unknown-action error. */
  function ProcessAction(action: string): (d: Dispatch)
    ensures d.Handled? <==> action in {"approve", "reject", "request_changes", "submit", "complete"}
    ensures d.Handled? ==> d.result.success
    ensures !d.Handled? ==> d == Failed("Unknown action: " + action)
  {
    match ParseAction(action)
    case Some(k) => Handled(Handle(k))
    case None => Failed("Unknown action: " + action)
  }

  /** Each action name reaches its own handler. */
  lemma {:induction false} ProcessActionResults()
    ensures ProcessAction("approve") == Handled(ActionResult(true, "approved"))
    ensures ProcessAction("reject") == Handled(ActionResult(true, "rejected"))
    ensures ProcessAction("request_changes") == Handled(ActionResult(true, "changes_requested"))
    ensures ProcessAction("submit") == Handled(ActionResult(true, "submitted"))
    ensures ProcessAction("complete") == Handled(ActionResult(true, "completed"))
  {
  }

  /** `processAction('toString')` is not refused as an unknown action. */
  lemma {:induction false} PrototypeMemberAccepted()
    ensures ProcessActionAsWritten("toString") == InheritedMember("toString")
    ensures ProcessAction("toString") == Failed("Unknown action: toString")
  {
  }

  /** Apart from the prototype's members, the code as written and the
      corrected dispatch agree. */
  lemma {:induction false} AsWrittenAgreesElsewhere(action: string)
    requires action !in ObjectPrototypeMembers
    ensures ProcessActionAsWritten(action) == ProcessAction(action)
  {
  }

  /** `getAvailableActions`: a fixed list. */
  function GetAvailableActions(): (actions: seq<string>)
    ensures |actions| == 3
    ensures forall i :: 0 <= i < |actions| ==> ProcessAction(actions[i]).Handled?
  {
    ["approve", "reject", "request_changes"]
  }

  /** One check of `validateStepCompletion`; `passed` is read for truthiness. */
  datatype Validation = Validation(name: string, passed: Value)

  /** `validations.every(v => v.passed)`. */
  function AllPassed(validations: seq<Validation>): (b: bool)
    ensures b <==> forall i :: 0 <= i < |validations| ==> Truthy(validations[i].passed)
  {
    if validations == [] then true
    else Truthy(validations[0].passed) && AllPassed(validations[1..])
  }

  datatype StepCompletion = StepCompletion(canComplete: bool, validations: seq<Validation>)

  /** The completion verdict over a list of checks. */
  function CompletionOf(validations: seq<Validation>): (c: StepCompletion)
    ensures c.validations == validations
    ensures c.canComplete <==> forall i :: 0 <= i < |validations| ==> Truthy(validations[i].passed)
  {
    StepCompletion(AllPassed(validations), validations)
  }

  /** A failing check blocks completion however many others pass. */
  lemma {:induction false} OneFailureBlocks(before: seq<Validation>, failed: Validation, after: seq<Validation>)
    requires !Truthy(failed.passed)
    ensures !CompletionOf(before + [failed] + after).canComplete
  {
    assert (before + [failed] + after)[|before|] == failed;
  }

  /** `validateStepCompletion` as it runs: no checks yet, so every step can complete. */
  function ValidateStepCompletion(applicationId: string, stepId: string, userId: string): (c: StepCompletion)
    ensures c.canComplete && c.validations == []
  {
    CompletionOf([])
  }

  datatype Initialized = Initialized(success: bool, currentStep: Option<string>)

  /** `initializeWorkflow` as it runs: success with no current step. */
  function InitializeWorkflow(applicationId: string, templateId: string, userId: string): (r: Initialized)
    ensures r.success && r.currentStep.None?
  {
    Initialized(true, None)
  }

  datatype Moved = Moved(success: bool, nextStep: Option<string>)

  /** `moveToNextStep` as it runs: success with no next step. */
  function MoveToNextStep(applicationId: string, currentStepId: string, userId: string): (r: Moved)
    ensures r.success && r.nextStep.None?
  {
    Moved(true, None)
  }

  datatype Conditions = Conditions(nextStepId: Option<string>, conditionsMet: bool)

  /** `evaluateConditions` as it runs: conditions met, no next step chosen. */
  function EvaluateConditions(applicationId: string, stepId: string): (r: Conditions)
    ensures r.conditionsMet && r.nextStepId.None?
  {
    Conditions(None, true)
  }
}
